=== FILE: README.md ===
# Gate controller: MIL / SIL / HIL model

This project models a garage-gate test bench. The same gate controller is exercised at three tiers:

- **Model in the loop (MIL):** a Python reference controller.
- **Software in the loop (SIL):** a C++ copy compiled into a library.
- **Hardware in the loop (HIL):** the C++ copy flashed onto a board that sits behind a serial adapter.

One simulation loop drives every tier against the same physical model of the gate, and the model proves properties of each part.

- **controller.dfy** (`Controller`) holds the reference state machine. Its state is 0 CLOSED, 1 OPENING, 2 STOPPED or 3 CLOSING. A radio pulse advances the state modulo 4. The open limit then clamps OPENING to STOPPED, and the closed limit clamps CLOSING to CLOSED. The final state maps to a motor command in {-1, 0, 1}.
- **firmware.dfy** (`Firmware`) holds the C++ copy.
  - The state is an `int32_t`. The model writes out that C++ `%` truncates toward zero.
  - The overflow of `estado_atual + 1` is undefined behaviour in C++. The model makes its absence a precondition.
  - The file also models the constructor and `reset()`.
  - Lemmas prove that no call from the constructor's state can overflow, and that the C++ copy agrees with the Python one call for call.
- **plant.dfy** (`PlantModel`) holds the gate with mechanical play, the dead zone.
  - The position is clamped to the rail.
  - After a reversal or a start from rest, the motor must take up `zona_morta` of play before the gate moves.
  - Quantities are `real`, so the arithmetic is ideal rather than IEEE floating point.
- **hil.dfy** (`Hil`) holds the serial adapter's protocol.
  - Each call writes the request line `"{tecla},{fc_a},{fc_f}\n"` in ASCII, using Python's `True`/`False` spelling.
  - It then reads one reply line, decodes it as ASCII, strips whitespace and reads an integer as Python's `int()` does: an optional sign and digits with single underscores between them, at most 4300 digits.
  - A failed read, a decoding error, a blank reply or a non-integer reply all give the fail-safe command 0.
  - The port is the queue of replies it will deliver.
- **simulation.dfy** (`Simulation`) holds the loop. It is generic in the controller, whose state type is a parameter.
  - Each tick computes the limit switches from the plant's position and draws the pulse. It then calls the controller once and steps the plant once with the returned command.
  - A record is kept when there is a pulse, when the motor is driven, or when the tick index is a multiple of 100.
  - The three tiers are three instances of the loop. Lemmas prove that the reference tier and the compiled tier produce identical telemetry. They also prove that the hardware tier produces the same telemetry whenever the board's replies parse to the reference commands.

The pseudorandom generator is replaced by the sequence of its draws: one real number in [0, 1) per tick. The number of ticks is the length of that sequence.

## Model

| member | source | states |
|---|---|---|
| Controller.Process | MIL/LogicaControlador.py:21-34 | Validity of the state is kept: a valid state, or any state after a pulse, lands in {0..3}. The command is 1 exactly in OPENING, -1 exactly in CLOSING, and 0 otherwise. An asserted open limit never yields 1, and an asserted closed limit never yields -1. A pulse with no limit asserted advances the state to (s + 1) mod 4, which is CLOSED -> OPENING -> STOPPED -> CLOSING -> CLOSED. Without a pulse the state changes only by one of the two clamps, and with no inputs at all it does not change. |
| Controller.FreshControllerIdles | MIL/LogicaControlador.py:17-34 | A new controller is CLOSED. Called with no pulse and no limit, it stays CLOSED and returns 0. |
| Controller.TraceStaysValid | MIL/LogicaControlador.py:21-34 | Along any run of calls from a valid state, every state is in {0..3} and every command is in {-1, 0, 1}. |
| Controller.FourPulsesCycle | MIL/LogicaControlador.py:23-24 | With no limit asserted, successive pulses from s pass through (s + 1), (s + 2) and (s + 3) mod 4, and the fourth brings back s and its command. |
| Controller.PulseBeforeClamp | MIL/LogicaControlador.py:23-28 | The pulse is applied before the clamps, whatever the limits: a call with a pulse from s equals the call without one from (s + 1) mod 4. So from CLOSED or OPENING a pulse with the open limit asserted ends in STOPPED, and from STOPPED a pulse with the closed limit asserted ends in CLOSED. |
| Controller.BothLimitsStopMotor | MIL/LogicaControlador.py:27-34 | With both limits asserted the command is 0, whatever the state and the pulse. |
| Firmware.CRem4 | HIL/firmware/LogicaControlador.h:29 | C++ `% 4` leaves a remainder congruent to the dividend modulo 4, with absolute value below 4, carrying the dividend's sign. |
| Firmware.New | HIL/firmware/LogicaControlador.h:22 | The constructor leaves the object in the same state as a new Python controller (CLOSED), which is valid. |
| Firmware.Reset | HIL/firmware/LogicaControlador.h:45-47 | Whatever the prior state, `reset()` leaves the object in the state of a new controller (CLOSED), which is valid. |
| Firmware.Processar | HIL/firmware/LogicaControlador.h:26-41 | If the increment cannot overflow, the returned value is in {-1, 0, 1}. From a valid state the next state is valid, and the call returns exactly what the Python reference's call returns and leaves the same state. |
| Firmware.FwTrace | HIL/firmware/LogicaControlador.h:26-41 | From a valid object, no call of any run overflows, and every state along the run is valid. |
| Firmware.TiersAgreeFrom | HIL/firmware/LogicaControlador.h:26-41 | From corresponding states, the C++ copy and the Python reference go through the same states and return the same commands for any input sequence. |
| Firmware.TiersAgree | HIL/firmware/LogicaControlador.h:22-41 | A new C++ object and a new Python object behave identically, call for call. |
| Firmware.ResetForgetsHistory | HIL/firmware/LogicaControlador.h:45-47 | After `reset()`, whatever the prior state, the object is valid and behaves like a new Python controller. |
| PlantModel.Init | MIL/PlantaPortao.py:11-17 | A new plant is closed (position 0), with no play taken up and no direction. It lies on the rail of any gate whose travel is non-negative. Its empty play meets the play bound whenever that bound is non-negative. No command finds it engaged, so with a positive dead zone the first motor command must take up the play before the gate moves. |
| PlantModel.Calcular | MIL/PlantaPortao.py:21-39 | A stopped motor changes nothing. With a positive dead zone, a reversal or a start from rest restarts the play at one step's travel and holds the gate. With a dead zone of zero or less, it restarts the play at 0 and moves the gate by one step, clamped to the rail, on the same call. Inside the dead zone only the play grows, by exactly one step's travel. The gate moves only when engaged, and then the play is left alone and the position moves by one step, clamped to the rail. A command outside {-1, 0, 1} never moves the gate. The bound on the play is kept. When `velocidade * dt` is not negative, staying on the rail is kept, +1 never decreases the position and -1 never increases it. |
| PlantModel.NewDirectionResets | MIL/PlantaPortao.py:23-25 | A reversal or a start from rest first discards the play: the call acts as the same call from the same position with no play, already facing the new direction, whatever the dead zone. |
| PlantModel.DeadZoneHolds | MIL/PlantaPortao.py:23-31 | After a fresh direction, while the play stays below the dead zone, `j` calls leave the gate in place with exactly `j` steps of play. |
| PlantModel.DeadZoneLasts | MIL/PlantaPortao.py:23-31 | Under a sustained command after a fresh direction, the gate stays put for exactly ceil(zonaMorta / abs(velocidade * dt)) calls. It is not engaged earlier and it is engaged then. |
| PlantModel.HoldStaysInTravel | MIL/PlantaPortao.py:34-39 | Any number of calls with the same command keeps the gate on the rail. |
| PlantModel.OpeningFromRest | MIL/PlantaPortao.py:23-37 | With speed 0.5, rail 5.0, dead zone 0.2 and step 0.1, an opening command from rest holds the gate for four calls. The fifth call moves it to 0.05. |
| PlantModel.SlackOvershoots | MIL/PlantaPortao.py:28-30 | The play can end above the dead zone: with a dead zone of 0.25 and a step's travel of 0.1 (speed 0.5, dt 0.2), three calls leave 0.3. |
| Hil.DecodeAscii | HIL/hil.py:77 | ASCII decoding succeeds exactly when every byte is below 128. When it does, the text has the same length and the same code points. |
| Hil.AsciiRoundTrip | HIL/hil.py:73-77 | Decoding the ASCII encoding of ASCII text gives the text back. |
| Hil.PayloadRoundTrip | HIL/hil.py:72 | The request text is unambiguous: read back as three tokens, two commas and a newline, it gives the three inputs. |
| Hil.PayloadIsOneLine | HIL/hil.py:72 | The request text is ASCII and is exactly one line: its only newline is the last character. |
| Hil.Request | HIL/hil.py:72-73 | The bytes written are the ASCII encoding of the request text. They form one newline-terminated line and read back as the inputs. |
| Hil.Strip | HIL/hil.py:77 | `strip()` gives empty text exactly when the text is all whitespace. Otherwise it gives text with non-blank ends. The result is always a slice of the input with only whitespace cut from either end, and text with no whitespace comes back unchanged. |
| Hil.StripPadding | HIL/hil.py:77 | Trailing whitespace after text with non-blank ends is exactly what `strip()` removes. |
| Hil.ParseInt | HIL/hil.py:78 | `int()` succeeds exactly when, after an optional sign, the text is digits grouped as in a Python literal (single underscores between digits) and has at most 4300 digits. Text after a minus sign reads as a value of at most 0, any other as a value of at least 0. |
| Hil.GroupedValue | HIL/hil.py:78 | What `int()` reads from grouped digits depends only on the digits: removing the underscores changes nothing, a leading plus sign changes nothing, and a leading minus sign negates the value. Each signed form fails exactly when the unsigned text fails. |
| Hil.LeadingZeroIgnored | HIL/hil.py:78 | A leading zero, or a leading zero and an underscore, does not change what `int()` reads, within the digit cap. |
| Hil.FormatIntParses | HIL/hil.py:78 | `int()` reads the decimal text of an integer n back as n when it has at most 4300 digits, and rejects it otherwise. |
| Hil.ParseReply | HIL/hil.py:76-82 | A failed read, a reply that is not ASCII, a blank reply, or a reply `int()` rejects gives 0. Otherwise the result is the integer `int()` reads from the stripped text, unclamped. |
| Hil.ReplyRoundTrip | HIL/hil.py:77-82 | A reply holding the decimal text of an integer n of at most 4300 digits, followed by CR LF, gives exactly n, including values outside {-1, 0, 1}. A longer text makes `int()` raise, and the reply gives 0. |
| Hil.Processar | HIL/hil.py:70-82 | One call sends the three inputs and consumes exactly one reply from the port. The command is that reply's parse. An exhausted port is a timeout and gives 0. |
| Simulation.SoftwareTiersInRange | MIL/LogicaControlador.py:31-34 | The reference and compiled tiers only ever drive the motor with -1, 0 or 1. |
| Simulation.HardwareTierUnclamped | HIL/hil.py:78-82 | The hardware tier drives the motor with whatever integer the board sends: a reply of 2 gives command 2. |
| Simulation.PeakTicks | MIL/SimulationLoop.py:36-42 | At ten ticks per second, the raised probability 0.005 applies to exactly the ticks strictly between 284400 and 291600 and those strictly between 644400 and 651600. Every other tick gets 0.00001. |
| Simulation.Tick | MIL/SimulationLoop.py:44-56 | The limits come from the position before the tick. The controller is called once with this tick's pulse and limits, and the plant is stepped once with the command returned. The recorded position is the position after the step. A zero command leaves the plant unchanged, and the gate stays on the rail. |
| Simulation.TraceInOrder | MIL/SimulationLoop.py:35-56 | Ticks are numbered consecutively. Each tick consumes exactly its own draw, whatever the controller, and starts from the state the previous tick left. |
| Simulation.TraceOnRail | MIL/SimulationLoop.py:28-56 | Every tick of a run from a fresh plant leaves the gate on the rail and reports where it left it. |
| Simulation.TraceCommandsInRange | MIL/SimulationLoop.py:53 | A controller that only returns -1, 0 or 1 does so on every tick of a run. |
| Simulation.Loop | MIL/SimulationLoop.py:35-60 | The loop only appends to the records it starts with and never rewrites them. It appends at most one record per remaining tick, and with no ticks left it returns them unchanged. |
| Simulation.LoopRecordsTrace | MIL/SimulationLoop.py:31-60 | The loop appends exactly the policy's filter of the run's ticks, in tick order. |
| Simulation.RecordedInOrder | MIL/SimulationLoop.py:35-60 | The kept records come in strictly increasing time order. |
| Simulation.RecordedIsFilter | MIL/SimulationLoop.py:59-60 | A tick's record is kept exactly when it has a pulse, a non-zero command or an index divisible by 100. Every kept record is such a tick's record. |
| Simulation.SimulationLoop | MIL/SimulationLoop.py:27-63 | There are at most as many records as ticks. Tick 0 is always recorded. Times strictly increase. Every recorded position lies in [0, CURSO_TOTAL]. A controller with commands in {-1, 0, 1} records only such commands. |
| Simulation.RecordPolicy | MIL/SimulationLoop.py:59-60 | Each tick of the run is recorded exactly when the policy keeps it. Each record is such a tick's hour, pulse, post-step position and motor command, not the controller's state. |
| Simulation.ReferenceMatchesCompiled | MIL/SimulationLoop.py:27-63 | The reference tier and the compiled tier produce identical telemetry for every stream of draws. |
| Simulation.HardwareAnswersFromQueue | HIL/hil.py:70-82 | The hardware tier ignores its inputs when computing the command: it consumes one reply per call and returns that reply's parse. |
| Simulation.QueueLockstep | MIL/SimulationLoop.py:35-56 | Suppose a controller answers from a queue whose replies read as another controller's commands on the same run. Then the two runs see the same pulses, limits, commands and positions, tick for tick. |
| Simulation.RecordedLockstep | MIL/SimulationLoop.py:59-60 | The telemetry depends only on what the ticks saw and did, not on the controller's internal state. |
| Simulation.LockstepLoops | MIL/SimulationLoop.py:27-63 | Two controllers whose runs tick in lockstep produce identical telemetry. |
| Simulation.HardwareMatchesReference | HIL/hil.py:70-82 | If each reply the board sends parses to the command the reference controller gives on that tick, the hardware tier's telemetry equals the reference tier's. |
| Simulation.HardwareFaultHoldsGate | HIL/hil.py:76-80 | A failed read, a non-ASCII reply or a non-integer reply stops the motor for that tick and leaves the gate where it was. The run goes on. |
| Simulation.FirstPulseOpens | MIL/SimulationLoop.py:44-56 | On a fresh run whose first draw, whatever its value, is a pulse, both software tiers start opening at tick 0 even though the closed limit is asserted. The gate holds still while the play is taken up. |

## Left out

- The play is not bounded by `zona_morta`: `calcular` adds a whole step's travel while the play is below it, so it can end up to one step above (`PlantModel.SlackOvershoots`). `PlantModel.Calcular` bounds it by `zonaMorta + abs(velocidade * dt)`.
- Floating point: positions, play, hours and draws are exact reals. IEEE rounding of the accumulated play and of `hora` is not modelled.
- The pseudorandom generator (`random.seed(SEMENTE)`, `random.random()`): replaced by the sequence of draws. The number of ticks (`passos = int(86400 / 0.1)`) is the length of that sequence rather than computed.
- Plotting (`MIL/Grafico.py`), the per-tier wiring and export (`MIL/mil.py`, `SIL/sil.py`, `executar_simulação` in `HIL/hil.py`), and library loading: these are I/O and foreign calls with no logic of their own.
- Opening the serial port (`get_serial`), the boot delay and `exit()`: these are I/O. The port is the queue of `readline()` results. A run-dry queue behaves as a timeout that read nothing.
- `SIL/controlador.cpp`: a forwarding shim over one global instance of the header's class, whose behaviour the `Firmware` module covers, including `reset()`.
- The board's own firmware sketch is not part of this model. `Hil.ReplyLine` stands for the line a board sends for a command.
- Hil.ParseInt: models CPython's `int()` on ASCII text with the default limit of 4300 digits (`sys.set_int_max_str_digits` is never called). Non-ASCII digits cannot reach `int()`, because the ASCII decode fails first. Surrounding whitespace is already gone after `strip()`.
- Hil.Processar: an exception raised by the write itself, which sits outside the adapter's `try`, is not modelled. Writing is total here.
- Hil.Processar: the order "write, then read" within one call is by construction. The call reports the request it wrote (`Hil.Written`) and the one reply it read. There is no separate transcript of port events.
- Firmware.Processar: on a state whose increment would overflow, C++ behaviour is undefined. The model excludes that case by a precondition, and `Firmware.FwTrace` shows that no state reachable from the constructor meets it.

=== FILE: controller.dfy ===
/**
 The reference (model-in-the-loop) gate controller: a single-button state
 machine whose whole state is one integer, 0 CLOSED, 1 OPENING, 2 STOPPED,
 3 CLOSING. A radio pulse advances the state cyclically, the two limit
 switches then clamp OPENING to STOPPED and CLOSING to CLOSED, and the
 resulting state is mapped to a motor command in {-1, 0, 1}.

 The state is an unbounded `int`, as in the Python object. Python's `%`
 floors, which for the positive divisor 4 agrees with Dafny's Euclidean `%`.
 */
module Controller {

  const CLOSED: int := 0
  const OPENING: int := 1
  const STOPPED: int := 2
  const CLOSING: int := 3

  predicate ValidState(s: int) {
    0 <= s <= 3
  }

  /** The three inputs of one call: radio pulse, open limit, closed limit. */
  datatype Inputs = Inputs(tecla: bool, fcA: bool, fcF: bool)

  /** What one call leaves behind: the state after the call and the command returned. */
  datatype Step = Step(estado: int, cmd: int)

  /** A freshly constructed controller. */
  function Init(): int {
    CLOSED
  }

  /** The motor command of a state: open while OPENING, close while CLOSING, else stop. */
  function MotorCommand(s: int): int {
    if s == OPENING then 1 else if s == CLOSING then -1 else 0
  }

  /** One call of the controller from state `s`. */
  function Process(s: int, tecla: bool, fcA: bool, fcF: bool): (r: Step)
    ensures tecla || ValidState(s) ==> ValidState(r.estado)
    ensures r.cmd == 1 <==> r.estado == OPENING
    ensures r.cmd == -1 <==> r.estado == CLOSING
    ensures r.cmd == 0 <==> r.estado != OPENING && r.estado != CLOSING
    ensures fcA ==> r.cmd != 1
    ensures fcF ==> r.cmd != -1
    ensures !tecla && !fcA && !fcF ==> r.estado == s
    // a pulse with no limit asserted advances the state cyclically:
    // CLOSED -> OPENING -> STOPPED -> CLOSING -> CLOSED
    ensures tecla && !fcA && !fcF ==> r.estado == (s + 1) % 4
    ensures !tecla ==> r.estado == s || (fcA && s == OPENING && r.estado == STOPPED)
                                     || (fcF && s == CLOSING && r.estado == CLOSED)
  {
    var pulsed := if tecla then (s + 1) % 4 else s;
    var openClamped := if fcA && pulsed == OPENING then STOPPED else pulsed;
    var closedClamped := if fcF && openClamped == CLOSING then CLOSED else openClamped;
    Step(closedClamped, MotorCommand(closedClamped))
  }

  function ProcessInputs(s: int, x: Inputs): Step {
    Process(s, x.tecla, x.fcA, x.fcF)
  }

  /** The states and commands of a run of calls from state `s`, one per input. */
  function Trace(s: int, ins: seq<Inputs>): (t: seq<Step>)
    decreases |ins|
    ensures |t| == |ins|
    ensures |ins| > 0 ==> t[0] == ProcessInputs(s, ins[0])
    ensures forall k :: 0 < k < |t| ==> t[k] == ProcessInputs(t[k - 1].estado, ins[k])
  {
    if |ins| == 0 then []
    else
      var first := ProcessInputs(s, ins[0]);
      [first] + Trace(first.estado, ins[1..])
  }

  /** A fresh controller is CLOSED and, with no pulse and no limit, stays CLOSED and returns 0. */
  lemma FreshControllerIdles()
    ensures Init() == CLOSED
    ensures Process(Init(), false, false, false) == Step(CLOSED, 0)
  {
  }

  /** Every state along a run from a valid state is valid, and every command is in {-1, 0, 1}. */
  lemma {:induction false} TraceStaysValid(s: int, ins: seq<Inputs>)
    requires ValidState(s)
    decreases |ins|
    ensures forall k :: 0 <= k < |ins| ==> ValidState(Trace(s, ins)[k].estado)
    ensures forall k :: 0 <= k < |ins| ==> -1 <= Trace(s, ins)[k].cmd <= 1
  {
    if |ins| > 0 {
      var first := ProcessInputs(s, ins[0]);
      TraceStaysValid(first.estado, ins[1..]);
      var t := Trace(s, ins);
      assert t == [first] + Trace(first.estado, ins[1..]);
      forall k | 0 <= k < |ins|
        ensures ValidState(t[k].estado) && -1 <= t[k].cmd <= 1
      {
        if k > 0 {
          assert t[k] == Trace(first.estado, ins[1..])[k - 1];
        }
      }
    }
  }

  /**
   Four pulses with no limit switch asserted visit the next three states in
   cyclic order and bring back the original state and command.
   */
  lemma FourPulsesCycle(s: int)
    requires ValidState(s)
    ensures var a := Process(s, true, false, false);
            var b := Process(a.estado, true, false, false);
            var c := Process(b.estado, true, false, false);
            var d := Process(c.estado, true, false, false);
            && a.estado == (s + 1) % 4 && b.estado == (s + 2) % 4 && c.estado == (s + 3) % 4
            && d.estado == s && d.cmd == MotorCommand(s)
  {
  }

  /**
   The pulse is applied before the limit clamps: a call with a pulse is the
   call without one from the successor state, whatever the limits. So from
   CLOSED a pulse with the open limit asserted ends in STOPPED, from OPENING
   it ends in STOPPED too, and from STOPPED a pulse with the closed limit
   asserted ends in CLOSED.
   */
  lemma PulseBeforeClamp(s: int, fcA: bool, fcF: bool)
    ensures Process(s, true, fcA, fcF) == Process((s + 1) % 4, false, fcA, fcF)
    ensures Process(CLOSED, true, true, fcF) == Step(STOPPED, 0)
    ensures Process(OPENING, true, true, fcF) == Step(STOPPED, 0)
    ensures Process(STOPPED, true, fcA, true) == Step(CLOSED, 0)
  {
  }

  /** With both limits asserted the motor is never driven, whatever the state and pulse. */
  lemma BothLimitsStopMotor(s: int, tecla: bool)
    ensures Process(s, tecla, true, true).cmd == 0
  {
  }
}

=== FILE: firmware.dfy ===
/**
 The C++ copy of the gate controller, compiled into the software-in-the-loop
 library and flashed onto the hardware-in-the-loop board. Its state is an
 `int32_t`, its `%` truncates toward zero, and `estado_atual + 1` is undefined
 behaviour when the state is already the largest `int32_t`; all three are
 written out here. The lemmas at the end show that from the constructor the
 overflow cannot happen and that the copy agrees call for call with the
 Python reference in module Controller.
 */
module Firmware {

  import opened Controller

  const INT32_MIN: int := -0x8000_0000
  const INT32_MAX: int := 0x7fff_ffff

  newtype Int32 = x: int | INT32_MIN <= x <= INT32_MAX

  /**
   C++ `a % 4` on a signed integer: the quotient truncates toward zero, so a
   non-zero remainder takes the dividend's sign (unlike Python's and Dafny's).
   */
  function CRem4(a: int): (r: int)
    ensures (a - r) % 4 == 0
    ensures -4 < r < 4
    ensures a >= 0 ==> r >= 0
    ensures a <= 0 ==> r <= 0
  {
    if a >= 0 then a % 4 else -((-a) % 4)
  }

  /** The controller object: its one private field. */
  datatype Fw = Fw(estadoAtual: Int32)

  /** What one call of `processar_controlador` leaves behind. */
  datatype FwStep = FwStep(next: Fw, ret: Int32)

  /** The constructor. */
  function New(): (c: Fw)
    ensures c.estadoAtual as int == Init()
    ensures ValidState(c.estadoAtual as int)
  {
    Fw(0)
  }

  /** `reset()`: back to the constructor's state, whatever the state was. */
  function Reset(c: Fw): (r: Fw)
    ensures r.estadoAtual as int == Init()
    ensures Valid(r)
  {
    New()
  }

  predicate Valid(c: Fw) {
    ValidState(c.estadoAtual as int)
  }

  /**
   One call of `processar_controlador`. The requires is the absence of signed
   overflow in `estado_atual + 1`, which C++ leaves undefined.
   */
  function Processar(c: Fw, tecla: bool, fcA: bool, fcF: bool): (r: FwStep)
    requires !tecla || c.estadoAtual as int < INT32_MAX
    ensures -1 <= r.ret as int <= 1
    ensures Valid(c) ==> Valid(r.next)
    ensures Valid(c) ==> Process(c.estadoAtual as int, tecla, fcA, fcF)
                         == Step(r.next.estadoAtual as int, r.ret as int)
  {
    var pulsed: Int32 := if tecla then CRem4(c.estadoAtual as int + 1) as Int32 else c.estadoAtual;
    var openClamped: Int32 := if fcA && pulsed == 1 then 2 else pulsed;
    var closedClamped: Int32 := if fcF && openClamped == 3 then 0 else openClamped;
    var ret: Int32 := if closedClamped == 1 then 1 else if closedClamped == 3 then -1 else 0;
    FwStep(Fw(closedClamped), ret)
  }

  /** An object as the constructor and `processar_controlador` leave it: its state is one of the four. */
  type ValidFw = c: Fw | Valid(c) witness Fw(0)

  function ProcessarInputs(c: Fw, x: Inputs): FwStep
    requires Valid(c)
  {
    Processar(c, x.tecla, x.fcA, x.fcF)
  }

  /** The run of calls from a valid object, one per input; no call overflows. */
  function FwTrace(c: Fw, ins: seq<Inputs>): (t: seq<FwStep>)
    requires Valid(c)
    decreases |ins|
    ensures |t| == |ins|
    ensures forall k :: 0 <= k < |t| ==> Valid(t[k].next)
    ensures |ins| > 0 ==> t[0] == ProcessarInputs(c, ins[0])
    ensures forall k :: 0 < k < |t| ==> t[k] == ProcessarInputs(t[k - 1].next, ins[k])
  {
    if |ins| == 0 then []
    else
      var first := ProcessarInputs(c, ins[0]);
      [first] + FwTrace(first.next, ins[1..])
  }

  /** The Python view of one C++ call. */
  function AsStep(s: FwStep): Step {
    Step(s.next.estadoAtual as int, s.ret as int)
  }

  /**
   The C++ copy and the Python reference, started in corresponding states and
   fed the same inputs, pass through the same states and return the same commands.
   */
  lemma {:induction false} TiersAgreeFrom(c: Fw, ins: seq<Inputs>)
    requires Valid(c)
    decreases |ins|
    ensures forall k :: 0 <= k < |ins| ==>
              AsStep(FwTrace(c, ins)[k]) == Trace(c.estadoAtual as int, ins)[k]
  {
    if |ins| > 0 {
      var first := ProcessarInputs(c, ins[0]);
      TiersAgreeFrom(first.next, ins[1..]);
      var ft := FwTrace(c, ins);
      var pt := Trace(c.estadoAtual as int, ins);
      assert ft == [first] + FwTrace(first.next, ins[1..]);
      assert pt == [ProcessInputs(c.estadoAtual as int, ins[0])]
                   + Trace(first.next.estadoAtual as int, ins[1..]);
      forall k | 0 <= k < |ins|
        ensures AsStep(ft[k]) == pt[k]
      {
        if k > 0 {
          assert ft[k] == FwTrace(first.next, ins[1..])[k - 1];
          assert pt[k] == Trace(first.next.estadoAtual as int, ins[1..])[k - 1];
        }
      }
    }
  }

  /** A freshly constructed C++ controller behaves step for step like a fresh Python one. */
  lemma TiersAgree(ins: seq<Inputs>)
    ensures forall k :: 0 <= k < |ins| ==> AsStep(FwTrace(New(), ins)[k]) == Trace(Init(), ins)[k]
  {
    TiersAgreeFrom(New(), ins);
  }

  /** After `reset()` the object behaves like a fresh Python controller, whatever its prior state. */
  lemma ResetForgetsHistory(c: Fw, ins: seq<Inputs>)
    ensures Valid(Reset(c))
    ensures forall k :: 0 <= k < |ins| ==> AsStep(FwTrace(Reset(c), ins)[k]) == Trace(Init(), ins)[k]
  {
    TiersAgreeFrom(Reset(c), ins);
  }
}

=== FILE: hil.dfy ===
/**
 The hardware-in-the-loop adapter: the controller runs on a board reached
 over a serial line. Each call writes one ASCII request line
 `"{tecla},{fc_a},{fc_f}\n"`, with the booleans spelled as Python prints them,
 reads one reply line and turns it into a motor command, falling back to 0
 whenever the read fails, the reply is not ASCII, is blank, or is not an
 integer. The port itself is abstracted as the queue of replies it will
 deliver; each call reports the bytes it wrote and the reply it read.
 */
module Hil {

  import opened Controller

  newtype Byte = x: int | 0 <= x < 256

  datatype Option<T> = None | Some(value: T)

  /** One `readline()`: the bytes that arrived before the newline or the timeout, or an exception. */
  datatype SerialRead = Received(bytes: seq<Byte>) | Failed

  /** The port as the adapter sees it: the replies still to come, one per `readline()`. */
  datatype Port = Port(pending: seq<SerialRead>)

  /**
   What one call of the adapter leaves behind: the port, the inputs it wrote
   (as the line `Request(sent)`), the reply it then read, and the command it returns.
   */
  datatype HilStep = HilStep(port: Port, sent: Inputs, reply: SerialRead, cmd: int)

  const NEWLINE: Byte := 10

  // ---------------------------------------------------------------------
  // ASCII text and bytes

  predicate IsAscii(s: string) {
    forall i :: 0 <= i < |s| ==> s[i] as int < 128
  }

  /** `str.encode('ascii')` of a string that is ASCII, which cannot fail. */
  function AsciiBytes(s: string): (b: seq<Byte>)
    requires IsAscii(s)
    ensures |b| == |s|
    ensures forall i :: 0 <= i < |s| ==> b[i] as int == s[i] as int
  {
    if |s| == 0 then []
    else
      var b := [s[0] as int as Byte] + AsciiBytes(s[1..]);
      assert forall i :: 1 <= i < |s| ==> b[i] == AsciiBytes(s[1..])[i - 1];
      b
  }

  /** `bytes.decode('ascii')`: fails exactly when some byte is 128 or above. */
  function DecodeAscii(b: seq<Byte>): (r: Option<string>)
    ensures r.Some? <==> forall i :: 0 <= i < |b| ==> b[i] < 128
    ensures r.Some? ==> |r.value| == |b| && IsAscii(r.value)
    ensures r.Some? ==> forall i :: 0 <= i < |b| ==> r.value[i] as int == b[i] as int
  {
    if |b| == 0 then Some([])
    else if b[0] >= 128 then None
    else
      match DecodeAscii(b[1..])
      case None => None
      case Some(rest) =>
        var text := [b[0] as int as char] + rest;
        assert forall i :: 1 <= i < |b| ==> text[i] == rest[i - 1] && b[i] == b[1..][i - 1];
        Some(text)
  }

  /** Decoding what was encoded gives the text back. */
  lemma AsciiRoundTrip(s: string)
    requires IsAscii(s)
    ensures DecodeAscii(AsciiBytes(s)) == Some(s)
  {
    var b := AsciiBytes(s);
    assert forall i :: 0 <= i < |b| ==> b[i] < 128;
    var t := DecodeAscii(b).value;
    assert |t| == |s|;
    assert forall i :: 0 <= i < |s| ==> t[i] as int == s[i] as int;
    assert forall i :: 0 <= i < |s| ==> t[i] == s[i];
    assert t == s;
  }

  // ---------------------------------------------------------------------
  // The request line

  /** Python's `str()` of a boolean. */
  function PyBool(b: bool): string {
    if b then "True" else "False"
  }

  /** The request text `f"{tecla},{fc_a},{fc_f}\n"`. */
  function Payload(tecla: bool, fcA: bool, fcF: bool): string {
    PyBool(tecla) + "," + PyBool(fcA) + "," + PyBool(fcF) + "\n"
  }

  /** Reads one boolean token off the front of `s`, returning it and the rest. */
  function ParseBool(s: string): Option<(bool, string)> {
    if |s| >= 4 && s[..4] == "True" then Some((true, s[4..]))
    else if |s| >= 5 && s[..5] == "False" then Some((false, s[5..]))
    else None
  }

  /** Reads a boolean token followed by `sep` off the front of `s`. */
  function ParseField(s: string, sep: char): Option<(bool, string)> {
    match ParseBool(s)
    case None => None
    case Some((b, rest)) =>
      if |rest| > 0 && rest[0] == sep then Some((b, rest[1..])) else None
  }

  /** The receiving side's reading of a request line: three tokens, two commas, one newline. */
  function ParsePayload(s: string): Option<Inputs> {
    match ParseField(s, ',')
    case None => None
    case Some((t, r1)) =>
      match ParseField(r1, ',')
      case None => None
      case Some((a, r2)) =>
        match ParseField(r2, '\n')
        case None => None
        case Some((f, r3)) => if r3 == "" then Some(Inputs(t, a, f)) else None
  }

  lemma ParseFieldOf(b: bool, sep: char, rest: string)
    ensures ParseField(PyBool(b) + [sep] + rest, sep) == Some((b, rest))
  {
    var s := PyBool(b) + [sep] + rest;
    if b {
      assert s[..4] == "True" && s[4..] == [sep] + rest;
    } else {
      assert s[..4] != "True" by { assert s[1] == 'a'; }
      assert s[..5] == "False" && s[5..] == [sep] + rest;
    }
  }

  /** The request line names its three inputs unambiguously: the receiving side reads them back. */
  lemma PayloadRoundTrip(tecla: bool, fcA: bool, fcF: bool)
    ensures ParsePayload(Payload(tecla, fcA, fcF)) == Some(Inputs(tecla, fcA, fcF))
  {
    var r2 := PyBool(fcF) + "\n";
    var r1 := PyBool(fcA) + "," + r2;
    assert Payload(tecla, fcA, fcF) == PyBool(tecla) + [','] + r1;
    assert r1 == PyBool(fcA) + [','] + r2;
    assert r2 == PyBool(fcF) + ['\n'] + "";
    ParseFieldOf(tecla, ',', r1);
    ParseFieldOf(fcA, ',', r2);
    ParseFieldOf(fcF, '\n', "");
  }

  predicate NoNewline(s: string) {
    forall i :: 0 <= i < |s| ==> s[i] != '\n'
  }

  /** The request text is one line: ASCII, with its only newline at the end. */
  lemma PayloadIsOneLine(tecla: bool, fcA: bool, fcF: bool)
    ensures var p := Payload(tecla, fcA, fcF);
            && IsAscii(p) && |p| > 0 && p[|p| - 1] == '\n'
            && NoNewline(p[..|p| - 1])
  {
    var p := Payload(tecla, fcA, fcF);
    var body := PyBool(tecla) + "," + PyBool(fcA) + "," + PyBool(fcF);
    assert p == body + "\n";
    assert p[..|p| - 1] == body;
  }

  const COMMA: Byte := 44

  /** The ASCII bytes of `PyBool(b)`. */
  function BoolBytes(b: bool): seq<Byte> {
    if b then [84, 114, 117, 101] else [70, 97, 108, 115, 101]
  }

  /**
   The bytes written by one call: the ASCII encoding of the request text, one
   newline-terminated line that reads back as the three inputs.
   */
  function Request(tecla: bool, fcA: bool, fcF: bool): (b: seq<Byte>)
    ensures DecodeAscii(b) == Some(Payload(tecla, fcA, fcF))
    ensures |b| > 0 && b[|b| - 1] == NEWLINE
    ensures forall i :: 0 <= i < |b| - 1 ==> b[i] != NEWLINE
    ensures ParsePayload(DecodeAscii(b).value) == Some(Inputs(tecla, fcA, fcF))
  {
    RequestEncodesPayload(tecla, fcA, fcF);
    PayloadIsOneLine(tecla, fcA, fcF);
    RequestIsOneLine(Payload(tecla, fcA, fcF));
    PayloadRoundTrip(tecla, fcA, fcF);
    var b := BoolBytes(tecla) + [COMMA] + BoolBytes(fcA) + [COMMA] + BoolBytes(fcF) + [NEWLINE];
    assert b == AsciiBytes(Payload(tecla, fcA, fcF));
    b
  }

  /** Encoding distributes over concatenation. */
  lemma AsciiBytesAppend(x: string, y: string)
    requires IsAscii(x) && IsAscii(y)
    ensures IsAscii(x + y)
    ensures AsciiBytes(x + y) == AsciiBytes(x) + AsciiBytes(y)
  {
    assert forall i :: |x| <= i < |x + y| ==> (x + y)[i] == y[i - |x|];
    var l := AsciiBytes(x + y);
    var r := AsciiBytes(x) + AsciiBytes(y);
    assert forall i :: 0 <= i < |l| ==> l[i] == r[i];
  }

  lemma BoolBytesEncode(b: bool)
    ensures IsAscii(PyBool(b)) && BoolBytes(b) == AsciiBytes(PyBool(b))
  {
    var e := AsciiBytes(PyBool(b));
    assert forall i :: 0 <= i < |e| ==> e[i] == BoolBytes(b)[i];
  }

  lemma SeparatorEncode(c: char)
    requires c as int < 128
    ensures IsAscii([c]) && AsciiBytes([c]) == [c as int as Byte]
  {
  }

  /** The request bytes are `Payload(...).encode('ascii')`. */
  lemma RequestEncodesPayload(tecla: bool, fcA: bool, fcF: bool)
    ensures IsAscii(Payload(tecla, fcA, fcF))
    ensures BoolBytes(tecla) + [COMMA] + BoolBytes(fcA) + [COMMA] + BoolBytes(fcF) + [NEWLINE]
            == AsciiBytes(Payload(tecla, fcA, fcF))
  {
    BoolBytesEncode(tecla);
    BoolBytesEncode(fcA);
    BoolBytesEncode(fcF);
    SeparatorEncode(',');
    SeparatorEncode('\n');
    var p1 := PyBool(tecla) + ",";
    var p2 := p1 + PyBool(fcA);
    var p3 := p2 + ",";
    var p4 := p3 + PyBool(fcF);
    AsciiBytesAppend(PyBool(tecla), ",");
    AsciiBytesAppend(p1, PyBool(fcA));
    AsciiBytesAppend(p2, ",");
    AsciiBytesAppend(p3, PyBool(fcF));
    AsciiBytesAppend(p4, "\n");
    assert Payload(tecla, fcA, fcF) == p4 + "\n";
  }

  lemma RequestIsOneLine(text: string)
    requires IsAscii(text) && |text| > 0 && text[|text| - 1] == '\n' && NoNewline(text[..|text| - 1])
    ensures var b := AsciiBytes(text);
            && |b| > 0 && b[|b| - 1] == NEWLINE
            && (forall i :: 0 <= i < |b| - 1 ==> b[i] != NEWLINE)
            && DecodeAscii(b) == Some(text)
  {
    AsciiRoundTrip(text);
    var b := AsciiBytes(text);
    assert b[|b| - 1] as int == text[|text| - 1] as int;
    forall i | 0 <= i < |b| - 1 ensures b[i] != NEWLINE {
      assert text[i] == text[..|text| - 1][i] != '\n';
      assert b[i] as int == text[i] as int;
    }
  }

  // ---------------------------------------------------------------------
  // The reply line

  /** Python's `str.isspace()` on an ASCII character. */
  predicate IsSpace(c: char) {
    var n := c as int;
    n == 32 || 9 <= n <= 13 || 28 <= n <= 31
  }

  function StripLeft(s: string): (r: string)
    ensures |r| <= |s| && r == s[|s| - |r|..]
    ensures forall k :: 0 <= k < |s| - |r| ==> IsSpace(s[k])
    ensures |r| > 0 ==> !IsSpace(r[0])
  {
    if |s| > 0 && IsSpace(s[0]) then StripLeft(s[1..]) else s
  }

  function StripRight(s: string): (r: string)
    ensures |r| <= |s| && r == s[..|r|]
    ensures forall k :: |r| <= k < |s| ==> IsSpace(s[k])
    ensures |r| > 0 ==> !IsSpace(r[|r| - 1])
  {
    if |s| > 0 && IsSpace(s[|s| - 1]) then StripRight(s[..|s| - 1]) else s
  }

  /** `str.strip()`: the text between the leading and the trailing whitespace. */
  function Strip(s: string): (r: string)
    ensures Trimmed(s, r)
    ensures r == [] <==> forall k :: 0 <= k < |s| ==> IsSpace(s[k])
    ensures |r| > 0 ==> !IsSpace(r[0]) && !IsSpace(r[|r| - 1])
    ensures (forall k :: 0 <= k < |s| ==> !IsSpace(s[k])) ==> r == s
  {
    var left := StripLeft(s);
    AllSpaceWhenStripped(s, left);
    StripIsSlice(s, left);
    StripRight(left)
  }

  /** `r` is a slice of `s` with only whitespace cut from either end. */
  predicate Trimmed(s: string, r: string) {
    exists i, j :: 0 <= i <= j <= |s| && r == s[i..j]
                   && (forall k :: 0 <= k < i ==> IsSpace(s[k]))
                   && (forall k :: j <= k < |s| ==> IsSpace(s[k]))
  }

  lemma StripIsSlice(s: string, left: string)
    requires left == StripLeft(s)
    ensures Trimmed(s, StripRight(left))
  {
    TrimmedFromParts(s, |s| - |left|, left, StripRight(left));
  }

  lemma TrimmedFromParts(s: string, i: nat, left: string, r: string)
    requires i <= |s| && left == s[i..] && |r| <= |left| && r == left[..|r|]
    requires forall k :: 0 <= k < i ==> IsSpace(s[k])
    requires forall k :: |r| <= k < |left| ==> IsSpace(left[k])
    ensures Trimmed(s, r)
  {
    var j := i + |r|;
    assert r == s[i..j];
    forall k | j <= k < |s|
      ensures IsSpace(s[k])
    {
      assert s[k] == left[k - i];
    }
  }

  lemma AllSpaceWhenStripped(s: string, left: string)
    requires left == StripLeft(s)
    ensures StripRight(left) == [] ==> forall k :: 0 <= k < |s| ==> IsSpace(s[k])
  {
  }

  /** Trailing whitespace after a text with a non-blank end is exactly what `StripRight` removes. */
  lemma {:induction false} StripRightPadding(body: string, pad: string)
    requires |body| > 0 && !IsSpace(body[|body| - 1])
    requires forall k :: 0 <= k < |pad| ==> IsSpace(pad[k])
    ensures StripRight(body + pad) == body
  {
    if |pad| == 0 {
      assert body + pad == body;
    } else {
      var s := body + pad;
      assert s[|s| - 1] == pad[|pad| - 1];
      assert s[..|s| - 1] == body + pad[..|pad| - 1];
      StripRightPadding(body, pad[..|pad| - 1]);
    }
  }

  /** Whitespace after a text with non-blank ends is exactly what `strip` removes. */
  lemma StripPadding(body: string, pad: string)
    requires |body| > 0 && !IsSpace(body[0]) && !IsSpace(body[|body| - 1])
    requires forall k :: 0 <= k < |pad| ==> IsSpace(pad[k])
    ensures Strip(body + pad) == body
  {
    var s := body + pad;
    assert s[0] == body[0];
    assert StripLeft(s) == s;
    StripRightPadding(body, pad);
  }

  predicate IsDigit(c: char) {
    '0' <= c <= '9'
  }

  /** A non-empty run of ASCII digits. */
  predicate IsDecimal(s: string) {
    |s| > 0 && forall k :: 0 <= k < |s| ==> IsDigit(s[k])
  }

  /** The value of a run of digits, most significant first. */
  function DigitsValue(s: string): nat
    requires forall k :: 0 <= k < |s| ==> IsDigit(s[k])
  {
    if |s| == 0 then 0
    else
      assert IsDigit(s[|s| - 1]);
      DigitsValue(s[..|s| - 1]) * 10 + (s[|s| - 1] as int - '0' as int)
  }

  /** CPython's default cap on the digits `int()` converts from decimal text (`sys.int_info.default_max_str_digits`). */
  const INT_MAX_STR_DIGITS: nat := 4300

  /**
   Digits in Python's literal grouping, digit (["_"] digit)*: a digit at
   each end, and single underscores allowed between digits.
   */
  predicate IsGrouped(s: string)
    decreases |s|
  {
    && |s| > 0 && IsDigit(s[0])
    && (|s| == 1 || if s[1] == '_' then IsGrouped(s[2..]) else IsGrouped(s[1..]))
  }

  /** The digits of `s` with the underscores removed. */
  function Ungroup(s: string): (d: string)
    ensures |d| <= |s|
  {
    if |s| == 0 then ""
    else if s[0] == '_' then Ungroup(s[1..])
    else [s[0]] + Ungroup(s[1..])
  }

  /** Removing the underscores from grouped digits leaves a plain run of digits. */
  lemma {:induction false} UngroupDigits(s: string)
    requires IsGrouped(s)
    ensures IsDecimal(Ungroup(s))
  {
    if |s| > 1 {
      if s[1] == '_' {
        UngroupDigits(s[2..]);
        assert s[1..][1..] == s[2..];
      } else {
        UngroupDigits(s[1..]);
      }
    }
  }

  /** A plain run of digits is grouped and has no underscores to remove. */
  lemma {:induction false} DecimalGrouped(d: string)
    requires IsDecimal(d)
    ensures IsGrouped(d) && Ungroup(d) == d
  {
    assert IsDigit(d[0]);
    if |d| > 1 {
      assert IsDecimal(d[1..]) by {
        forall k | 0 <= k < |d| - 1 ensures IsDigit(d[1..][k]) { assert d[1..][k] == d[k + 1]; }
      }
      assert IsDigit(d[1]);
      DecimalGrouped(d[1..]);
      assert d == [d[0]] + d[1..];
    }
  }

  /** The text after an optional leading sign. */
  function Unsigned(s: string): string {
    if |s| > 0 && (s[0] == '-' || s[0] == '+') then s[1..] else s
  }

  /**
   Python's `int(text)` on text already stripped: an optional sign, then
   digits grouped as in a literal (leading zeros allowed); at most
   `INT_MAX_STR_DIGITS` digits, underscores not counted. Anything else
   raises, here `None`.
   */
  function ParseInt(s: string): (r: Option<int>)
    ensures r.Some? <==> IsGrouped(Unsigned(s)) && |Ungroup(Unsigned(s))| <= INT_MAX_STR_DIGITS
    ensures r.Some? && s[0] == '-' ==> r.value <= 0
    ensures r.Some? && s[0] != '-' ==> r.value >= 0
  {
    var body := Unsigned(s);
    if IsGrouped(body) && |Ungroup(body)| <= INT_MAX_STR_DIGITS then
      UngroupDigits(body);
      var magnitude: int := DigitsValue(Ungroup(body));
      Some(if s[0] == '-' then -magnitude else magnitude)
    else None
  }

  /** A leading zero adds nothing to the value of a run of digits. */
  lemma {:induction false} LeadingZeroValue(d: string)
    requires forall k :: 0 <= k < |d| ==> IsDigit(d[k])
    ensures DigitsValue("0" + d) == DigitsValue(d)
  {
    if |d| > 0 {
      var z := "0" + d;
      assert z[..|z| - 1] == "0" + d[..|d| - 1];
      LeadingZeroValue(d[..|d| - 1]);
    }
  }

  /**
   A leading zero, or a leading zero and one underscore, does not change
   what `int()` reads, as long as the extra digit stays within the cap.
   */
  lemma LeadingZeroIgnored(s: string)
    requires IsGrouped(s) && |Ungroup(s)| < INT_MAX_STR_DIGITS
    ensures ParseInt("0" + s) == ParseInt(s)
    ensures ParseInt("0_" + s) == ParseInt(s)
  {
    UngroupDigits(s);
    LeadingZeroValue(Ungroup(s));
    ZeroPrefixes(s);
    var v: int := DigitsValue(Ungroup(s));
    assert Unsigned(s) == s && s[0] != '-';
    assert ParseInt(s) == Some(v);
    assert Unsigned("0" + s) == "0" + s && ("0" + s)[0] != '-';
    assert ParseInt("0" + s) == Some(v);
    assert Unsigned("0_" + s) == "0_" + s && ("0_" + s)[0] != '-';
    assert ParseInt("0_" + s) == Some(v);
  }

  lemma ZeroPrefixes(s: string)
    requires IsGrouped(s)
    ensures IsGrouped("0" + s) && Ungroup("0" + s) == "0" + Ungroup(s)
    ensures IsGrouped("0_" + s) && Ungroup("0_" + s) == "0" + Ungroup(s)
  {
    var z := "0" + s;
    assert z[1..] == s;
    var u := "0_" + s;
    assert u[1..] == "_" + s;
    assert u[2..] == s;
    assert IsGrouped(u) && Ungroup(u) == "0" + Ungroup(s);
  }

  /** The decimal digits of `n`, most significant first, without leading zeros. */
  function Digits(n: nat): (s: string)
    ensures IsDecimal(s)
    ensures DigitsValue(s) == n
    ensures s[0] != '0' || n == 0
  {
    var last := ('0' as int + n % 10) as char;
    if n < 10 then [last]
    else
      var front := Digits(n / 10);
      var s := front + [last];
      assert s[..|s| - 1] == front;
      s
  }

  /** A signed integer printed in decimal, as the board sends its command. */
  function FormatInt(n: int): (s: string)
    ensures |s| > 0 && !IsSpace(s[0]) && !IsSpace(s[|s| - 1])
    ensures IsAscii(s)
  {
    var d := Digits(Magnitude(n));
    if n < 0 then "-" + d else d
  }

  /** `int()` reads a printed integer back, unless it has more digits than the cap. */
  lemma FormatIntParses(n: int)
    ensures ParseInt(FormatInt(n)) ==
              if |Digits(Magnitude(n))| <= INT_MAX_STR_DIGITS then Some(n) else None
  {
    var d := Digits(Magnitude(n));
    ParseDecimal(d);
    if n < 0 {
      DecimalGrouped(d);
      MinusValue(d);
    }
  }

  /** A plain run of digits reads as its value when within the cap. */
  lemma ParseDecimal(d: string)
    requires IsDecimal(d)
    ensures ParseInt(d) == if |d| <= INT_MAX_STR_DIGITS then Some(DigitsValue(d)) else None
  {
    DecimalGrouped(d);
    ParseUnsigned(d);
  }

  /**
   What `int()` reads from grouped digits is fixed by their digits alone: the
   underscores do not matter, a plus sign changes nothing, and a minus sign
   negates the value. With `LeadingZeroIgnored` and `FormatIntParses` this
   gives the value of every text `int()` accepts.
   */
  lemma GroupedValue(s: string)
    requires IsGrouped(s)
    ensures ParseInt(s) == ParseInt(Ungroup(s))
    ensures ParseInt("+" + s) == ParseInt(s)
    ensures ParseInt("-" + s) == if ParseInt(s).Some? then Some(-ParseInt(s).value) else None
  {
    UngroupDigits(s);
    var d := Ungroup(s);
    DecimalGrouped(d);
    ParseUnsigned(s);
    ParseUnsigned(d);
    PlusValue(s);
    MinusValue(s);
  }

  /** A plus sign before grouped digits changes nothing. */
  lemma PlusValue(s: string)
    requires IsGrouped(s) && IsDecimal(Ungroup(s))
    ensures ParseInt("+" + s) == ParseInt(s)
  {
    ParseUnsigned(s);
    var plus := "+" + s;
    assert plus[1..] == s;
    ParsePositive(plus, s);
  }

  /** A minus sign before grouped digits negates their value. */
  lemma MinusValue(s: string)
    requires IsGrouped(s) && IsDecimal(Ungroup(s))
    ensures ParseInt("-" + s) == if ParseInt(s).Some? then Some(-ParseInt(s).value) else None
  {
    ParseUnsigned(s);
    var minus := "-" + s;
    assert minus[1..] == s;
    ParseNegative(minus, s);
  }

  /** Grouped digits without a sign read as their value. */
  lemma ParseUnsigned(s: string)
    requires IsGrouped(s) && IsDecimal(Ungroup(s))
    ensures ParseInt(s) ==
              if |Ungroup(s)| <= INT_MAX_STR_DIGITS then Some(DigitsValue(Ungroup(s)) as int) else None
  {
    assert IsDigit(s[0]) && Unsigned(s) == s;
  }

  /** A plus sign before grouped digits reads as the digits' value. */
  lemma ParsePositive(m: string, d: string)
    requires |m| > 0 && m[0] == '+' && m[1..] == d && IsGrouped(d) && IsDecimal(Ungroup(d))
    ensures ParseInt(m) ==
              if |Ungroup(d)| <= INT_MAX_STR_DIGITS then Some(DigitsValue(Ungroup(d)) as int) else None
  {
    assert Unsigned(m) == d;
  }

  /** A minus sign before grouped digits negates what they read as. */
  lemma ParseNegative(m: string, d: string)
    requires |m| > 0 && m[0] == '-' && m[1..] == d && IsGrouped(d) && IsDecimal(Ungroup(d))
    ensures ParseInt(m) ==
              if |Ungroup(d)| <= INT_MAX_STR_DIGITS then Some(-(DigitsValue(Ungroup(d)) as int)) else None
  {
    assert Unsigned(m) == d;
  }

  function Magnitude(n: int): nat {
    if n < 0 then -n else n
  }

  /**
   The adapter's reading of one reply: the integer the line holds, or the
   fail-safe 0 when the read failed, the bytes are not ASCII, the stripped
   text is empty, or it is not an integer. The value is not clamped to the
   motor commands {-1, 0, 1}.
   */
  function ParseReply(reply: SerialRead): (cmd: int)
    ensures reply.Failed? ==> cmd == 0
    ensures reply.Received? && DecodeAscii(reply.bytes).None? ==> cmd == 0
    ensures reply.Received? && DecodeAscii(reply.bytes).Some? ==>
              var text := Strip(DecodeAscii(reply.bytes).value);
              && (text == "" ==> cmd == 0)
              && (ParseInt(text).None? ==> cmd == 0)
              && (ParseInt(text).Some? ==> cmd == ParseInt(text).value)
  {
    match reply
    case Failed => 0
    case Received(bytes) =>
      match DecodeAscii(bytes)
      case None => 0
      case Some(text) =>
        var resposta := Strip(text);
        if resposta == "" then 0
        else
          match ParseInt(resposta)
          case None => 0
          case Some(n) => n
  }

  /** The line a board sends for command `n`: its decimal text, then CR LF. */
  function ReplyLine(n: int): seq<Byte> {
    var s := FormatInt(n) + "\r\n";
    assert IsAscii(s) by {
      assert forall i :: |FormatInt(n)| <= i < |s| ==> s[i] == "\r\n"[i - |FormatInt(n)|];
    }
    AsciiBytes(s)
  }

  /**
   Any integer the board sends comes out of the adapter unchanged,
   out-of-range values included, unless its text is longer than `int()`
   accepts; then the adapter falls back to 0.
   */
  lemma ReplyRoundTrip(n: int)
    ensures ParseReply(Received(ReplyLine(n))) ==
              if |Digits(Magnitude(n))| <= INT_MAX_STR_DIGITS then n else 0
  {
    var text := FormatInt(n) + "\r\n";
    assert IsAscii(text) by {
      assert forall i :: |FormatInt(n)| <= i < |text| ==> text[i] == "\r\n"[i - |FormatInt(n)|];
    }
    AsciiRoundTrip(text);
    assert DecodeAscii(ReplyLine(n)) == Some(text);
    StripPadding(FormatInt(n), "\r\n");
    FormatIntParses(n);
    assert Strip(text) == FormatInt(n) != "";
  }

  // ---------------------------------------------------------------------
  // One call of the adapter

  /** The next `readline()`: a queue that has run dry is a timeout with nothing read. */
  function NextRead(p: Port): SerialRead {
    if |p.pending| == 0 then Received([]) else p.pending[0]
  }

  /** The line one call writes to the port. */
  function Written(r: HilStep): seq<Byte> {
    Request(r.sent.tecla, r.sent.fcA, r.sent.fcF)
  }

  /**
   One call of `processar_controlador` on the hardware adapter: the request
   line for the three inputs is written, then exactly one reply is read and
   parsed; no failure escapes.
   */
  function Processar(p: Port, tecla: bool, fcA: bool, fcF: bool): (r: HilStep)
    ensures r.sent == Inputs(tecla, fcA, fcF)
    ensures r.cmd == ParseReply(r.reply)
    ensures |p.pending| > 0 ==> r.reply == p.pending[0] && r.port.pending == p.pending[1..]
    ensures |p.pending| == 0 ==> r.cmd == 0 && r.port.pending == []
  {
    var reply := NextRead(p);
    var rest := if |p.pending| == 0 then [] else p.pending[1..];
    HilStep(Port(rest), Inputs(tecla, fcA, fcF), reply, ParseReply(reply))
  }
}

=== FILE: plant.dfy ===
/**
 The gate plant: a position on a rail of length `cursoTotal`, driven at
 `velocidade` by a motor command in {-1, 0, 1}, with mechanical play
 (`zonaMorta`) that the motor must take up after every reversal or start
 from rest before the gate moves. Quantities are `real`: ideal arithmetic,
 not IEEE doubles.
 */
module PlantModel {

  /** The constructor's parameters, fixed for the plant's lifetime. */
  datatype Gate = Gate(velocidade: real, cursoTotal: real, zonaMorta: real)

  /** The plant's changing state: position, play taken up so far, last non-zero direction. */
  datatype State = State(posicao: real, folgaAcumulada: real, direcaoAtual: int)

  /** What one call of `calcular` leaves behind: the new state and the position it returns. */
  datatype Reading = Reading(next: State, posicao: real)

  /**
   A freshly constructed plant: closed, no play taken up, at rest. It lies on
   the rail of any gate, its play meets any non-negative bound, and no
   command finds it engaged, so with a positive dead zone the first command
   that runs the motor must take up the play first.
   */
  function Init(): (s: State)
    ensures s.posicao == 0.0 && s.folgaAcumulada == 0.0 && s.direcaoAtual == 0
    ensures forall g: Gate :: 0.0 <= g.cursoTotal ==> InTravel(g, s)
    ensures forall g: Gate, dt: real :: SlackBounded(g, s, dt) <==> 0.0 <= g.zonaMorta + Abs(g.velocidade * dt)
    ensures forall g: Gate, cmd: int :: !Engaged(g, s, cmd)
  {
    State(0.0, 0.0, 0)
  }

  function Abs(x: real): real {
    if x < 0.0 then -x else x
  }

  function Min(a: real, b: real): real {
    if a <= b then a else b
  }

  function Max(a: real, b: real): real {
    if a >= b then a else b
  }

  /** The gate lies on the rail. */
  predicate InTravel(g: Gate, s: State) {
    0.0 <= s.posicao <= g.cursoTotal
  }

  /** The play taken up never exceeds the dead zone by more than one step's travel. */
  predicate SlackBounded(g: Gate, s: State, dt: real) {
    0.0 <= s.folgaAcumulada <= g.zonaMorta + Abs(g.velocidade * dt)
  }

  /** Command `cmd` continues the current direction and the play is taken up: the gate moves. */
  predicate Engaged(g: Gate, s: State, cmd: int) {
    cmd != 0 && cmd == s.direcaoAtual && s.folgaAcumulada >= g.zonaMorta
  }

  /** One call of `calcular(motor_cmd, dt)`. */
  function Calcular(g: Gate, s: State, motorCmd: int, dt: real): (r: Reading)
    ensures r.posicao == r.next.posicao
    // a stopped motor changes nothing, so resuming does not re-enter the dead zone
    ensures motorCmd == 0 ==> r.next == s
    ensures motorCmd != 0 ==> r.next.direcaoAtual == motorCmd
    // reversal or start from rest: the play restarts from zero and the gate holds still
    ensures motorCmd != 0 && motorCmd != s.direcaoAtual && 0.0 < g.zonaMorta ==>
              r.next == State(s.posicao, Abs(g.velocidade * dt), motorCmd)
    // with no dead zone, a reversal or a start from rest restarts the play at
    // zero and the gate moves on the same call
    ensures motorCmd == 1 && s.direcaoAtual != 1 && g.zonaMorta <= 0.0 ==>
              r.next == State(Min(g.cursoTotal, s.posicao + g.velocidade * dt), 0.0, 1)
    ensures motorCmd == -1 && s.direcaoAtual != -1 && g.zonaMorta <= 0.0 ==>
              r.next == State(Max(0.0, s.posicao - g.velocidade * dt), 0.0, -1)
    // inside the dead zone: only the play grows, by exactly one step's travel
    ensures motorCmd != 0 && motorCmd == s.direcaoAtual && s.folgaAcumulada < g.zonaMorta ==>
              r.next == State(s.posicao, s.folgaAcumulada + Abs(g.velocidade * dt), motorCmd)
    // the gate moves only once the play is taken up, and then the play is left alone
    ensures r.next.posicao != s.posicao ==> Engaged(g, r.next, motorCmd)
    ensures Engaged(g, s, motorCmd) ==> r.next.folgaAcumulada == s.folgaAcumulada
    ensures motorCmd == 1 && Engaged(g, s, 1) ==> r.posicao == Min(g.cursoTotal, s.posicao + g.velocidade * dt)
    ensures motorCmd == -1 && Engaged(g, s, -1) ==> r.posicao == Max(0.0, s.posicao - g.velocidade * dt)
    // a command outside {-1, 0, 1} engages the motor but never moves the gate
    ensures motorCmd != 1 && motorCmd != -1 ==> r.posicao == s.posicao
    ensures InTravel(g, s) && g.velocidade * dt >= 0.0 ==> InTravel(g, r.next)
    ensures InTravel(g, s) && g.velocidade * dt >= 0.0 && motorCmd == 1 ==> r.posicao >= s.posicao
    ensures InTravel(g, s) && g.velocidade * dt >= 0.0 && motorCmd == -1 ==> r.posicao <= s.posicao
    ensures SlackBounded(g, s, dt) ==> SlackBounded(g, r.next, dt)
  {
    var s1 := if motorCmd != 0 && motorCmd != s.direcaoAtual
              then State(s.posicao, 0.0, motorCmd)
              else s;
    if motorCmd != 0 && s1.folgaAcumulada < g.zonaMorta then
      var s2 := s1.(folgaAcumulada := s1.folgaAcumulada + Abs(g.velocidade * dt));
      Reading(s2, s2.posicao)
    else
      var s2 :=
        if motorCmd == 1 then s1.(posicao := Min(g.cursoTotal, s1.posicao + g.velocidade * dt))
        else if motorCmd == -1 then s1.(posicao := Max(0.0, s1.posicao - g.velocidade * dt))
        else s1;
      Reading(s2, s2.posicao)
  }

  /**
   A new direction first discards the play taken up so far: the call behaves
   as the same call from the same position with no play, already facing the
   new direction, whatever the dead zone.
   */
  lemma NewDirectionResets(g: Gate, s: State, cmd: int, dt: real)
    requires cmd != 0 && cmd != s.direcaoAtual
    ensures Calcular(g, s, cmd, dt) == Calcular(g, State(s.posicao, 0.0, cmd), cmd, dt)
  {
  }

  /** The state after `n` calls with the same command. */
  function Hold(g: Gate, s: State, cmd: int, dt: real, n: nat): State {
    if n == 0 then s else Calcular(g, Hold(g, s, cmd, dt, n - 1), cmd, dt).next
  }

  /** The smallest integer not below `x`. */
  function Ceil(x: real): (k: int)
    ensures (k - 1) as real < x <= k as real
  {
    -((-x).Floor)
  }

  /** The play taken up after `j` calls of a fresh direction, each adding `d`. */
  function Slack(j: nat, d: real): real {
    if j == 0 then 0.0 else Slack(j - 1, d) + d
  }

  /** `Slack` is `j` increments of `d`. */
  lemma {:induction false} SlackIsMultiple(j: nat, d: real)
    ensures Slack(j, d) == j as real * d
  {
    if j > 0 {
      SlackIsMultiple(j - 1, d);
      MulSucc(j - 1, d);
    }
  }

  lemma MulSucc(j: int, d: real)
    ensures (j + 1) as real * d == j as real * d + d
  {
  }

  /**
   While the play taken up stays below the dead zone, each call of a fresh
   direction adds one step's travel to the play and leaves the gate where it is.
   */
  lemma {:induction false} DeadZoneHolds(g: Gate, s: State, cmd: int, dt: real, j: nat)
    requires cmd != 0 && s.direcaoAtual != cmd
    requires 0.0 < g.zonaMorta && 0.0 < Abs(g.velocidade * dt)
    requires 1 <= j && Slack(j - 1, Abs(g.velocidade * dt)) < g.zonaMorta
    ensures Hold(g, s, cmd, dt, j) == State(s.posicao, Slack(j, Abs(g.velocidade * dt)), cmd)
  {
    var d := Abs(g.velocidade * dt);
    if j == 1 {
      assert Hold(g, s, cmd, dt, 1) == Calcular(g, s, cmd, dt).next;
      assert Slack(1, d) == d;
    } else {
      assert Slack(j - 1, d) == Slack(j - 2, d) + d;
      DeadZoneHolds(g, s, cmd, dt, j - 1);
      InsideDeadZone(g, Hold(g, s, cmd, dt, j - 1), cmd, dt);
      assert Slack(j, d) == Slack(j - 1, d) + d;
    }
  }

  /** One call that continues the direction inside the dead zone: only the play grows. */
  lemma InsideDeadZone(g: Gate, h: State, cmd: int, dt: real)
    requires cmd != 0 && h.direcaoAtual == cmd && h.folgaAcumulada < g.zonaMorta
    ensures Calcular(g, h, cmd, dt).next == State(h.posicao, h.folgaAcumulada + Abs(g.velocidade * dt), cmd)
  {
  }

  /**
   After a reversal or a start from rest, under a sustained command, the gate
   stays put for exactly ceil(zonaMorta / |velocidade * dt|) calls: it is not
   engaged after fewer calls, and it is engaged after that many, so the next
   call moves it.
   */
  lemma DeadZoneLasts(g: Gate, s: State, cmd: int, dt: real)
    requires cmd == 1 || cmd == -1
    requires s.direcaoAtual != cmd
    requires 0.0 < g.zonaMorta && g.velocidade * dt != 0.0
    ensures var k := Ceil(g.zonaMorta / Abs(g.velocidade * dt));
            && 1 <= k
            && (forall j: nat :: j <= k ==> Hold(g, s, cmd, dt, j).posicao == s.posicao)
            && (forall j: nat :: j < k ==> !Engaged(g, Hold(g, s, cmd, dt, j), cmd))
            && Engaged(g, Hold(g, s, cmd, dt, k), cmd)
  {
    var d := Abs(g.velocidade * dt);
    var k := Ceil(g.zonaMorta / d);
    forall j: nat | j <= k
      ensures Hold(g, s, cmd, dt, j).posicao == s.posicao
      ensures j < k ==> !Engaged(g, Hold(g, s, cmd, dt, j), cmd)
      ensures j == k ==> Engaged(g, Hold(g, s, cmd, dt, j), cmd)
    {
      if j > 0 {
        SlackBelow(j - 1, d, g.zonaMorta);
        DeadZoneHolds(g, s, cmd, dt, j);
        SlackBelow(j, d, g.zonaMorta);
      } else {
        assert Hold(g, s, cmd, dt, 0) == s;
      }
    }
  }

  /** The play after `j` increments stays below `z` exactly when `j` lies below `z / d`. */
  lemma SlackBelow(j: nat, d: real, z: real)
    requires 0.0 < d
    ensures Slack(j, d) < z <==> (j as real) < z / d
  {
    SlackIsMultiple(j, d);
    BelowQuotient(j as real, d, z);
  }

  /** For a positive divisor, `x` lies below `z / d` exactly when `x * d` lies below `z`. */
  lemma BelowQuotient(x: real, d: real, z: real)
    requires 0.0 < d
    ensures x < z / d <==> x * d < z
  {
    var q := z / d;
    assert q * d == z;
    if x < q {
      assert x * d < q * d;
    } else {
      assert x * d >= q * d;
    }
  }

  /** Under a sustained command the gate stays on the rail, however many calls overshoot the ends. */
  lemma {:induction false} HoldStaysInTravel(g: Gate, s: State, cmd: int, dt: real, n: nat)
    requires InTravel(g, s) && g.velocidade * dt >= 0.0
    ensures InTravel(g, Hold(g, s, cmd, dt, n))
  {
    if n > 0 {
      HoldStaysInTravel(g, s, cmd, dt, n - 1);
    }
  }

  /**
   The repository's configuration (speed 0.5, rail 5.0, dead zone 0.2, step
   0.1): from rest, an opening command holds the gate for four calls and the
   fifth moves it by 0.05.
   */
  lemma OpeningFromRest()
    ensures var g := Gate(0.5, 5.0, 0.2);
            && (forall j: nat :: j <= 4 ==> Hold(g, Init(), 1, 0.1, j).posicao == 0.0)
            && Hold(g, Init(), 1, 0.1, 5).posicao == 0.05
  {
    var g := Gate(0.5, 5.0, 0.2);
    assert Ceil(g.zonaMorta / Abs(g.velocidade * 0.1)) == 4;
    DeadZoneLasts(g, Init(), 1, 0.1);
  }

  /**
   The play can overshoot the dead zone by part of one step's travel: with a
   dead zone of 0.25 and a step's travel of 0.1, three calls leave 0.3 taken up.
   */
  lemma SlackOvershoots()
    ensures var g := Gate(0.5, 5.0, 0.25);
            Hold(g, Init(), 1, 0.2, 3).folgaAcumulada == 0.3 > g.zonaMorta
  {
    var g := Gate(0.5, 5.0, 0.25);
    assert Abs(g.velocidade * 0.2) == 0.1;
    assert Slack(2, 0.1) == 0.2 by {
      assert Slack(1, 0.1) == 0.1 by { assert Slack(0, 0.1) == 0.0; }
    }
    DeadZoneHolds(g, Init(), 1, 0.2, 3);
  }
}

=== FILE: simulation.dfy ===
/**
 The simulation loop shared by the three tiers. Each tick derives the two
 limit switches from the plant's position, draws the radio pulse, calls the
 controller once, steps the plant once with the controller's command, and
 keeps a record when there was a pulse, the motor is driven, or the tick
 index is a multiple of 100.

 The pseudorandom generator is replaced by the sequence of its draws (one per
 tick, uniform in [0, 1)); the number of ticks is the length of that
 sequence. The loop is generic in the controller it is wired to: the Python
 reference, the compiled C++ library, or the board behind the serial adapter
 are three instances of `Ctl`.
 */
module Simulation {

  import Controller
  import Firmware
  import Hil
  import opened PlantModel

  const VELOCIDADE: real := 0.5
  const CURSO_TOTAL: real := 5.0
  const ZONA_MORTA: real := 0.2
  const DT: real := 0.1
  const GATE: Gate := Gate(VELOCIDADE, CURSO_TOTAL, ZONA_MORTA)

  /** Every tick whose index is a multiple of this is recorded. */
  const RECORD_STRIDE: nat := 100

  const PROB_QUIET: real := 0.00001
  const PROB_PEAK: real := 0.005

  // ---------------------------------------------------------------------
  // The controller tiers

  /**
   A controller as the loop sees it: one call of
   `processar_controlador(tecla, fc_a, fc_f)` on an object whose state has
   type `C`, giving the state after the call and the motor command.
   */
  type Ctl<!C> = (C, bool, bool, bool) -> (C, int)

  /** The Python reference object. */
  function ReferenceCall(s: int, tecla: bool, fcA: bool, fcF: bool): (int, int) {
    var step := Controller.Process(s, tecla, fcA, fcF);
    (step.estado, step.cmd)
  }

  /** The compiled C++ library's object, always in one of its four states. */
  function CompiledCall(c: Firmware.ValidFw, tecla: bool, fcA: bool, fcF: bool): (Firmware.ValidFw, int) {
    var step := Firmware.Processar(c, tecla, fcA, fcF);
    (step.next, step.ret as int)
  }

  /** The serial adapter in front of the board. */
  function HardwareCall(p: Hil.Port, tecla: bool, fcA: bool, fcF: bool): (Hil.Port, int) {
    var step := Hil.Processar(p, tecla, fcA, fcF);
    (step.port, step.cmd)
  }

  /** The controller only ever drives the motor with -1, 0 or 1. */
  ghost predicate DrivesInRange<C(!new)>(ctl: Ctl<C>) {
    forall c, tecla, fcA, fcF :: -1 <= ctl(c, tecla, fcA, fcF).1 <= 1
  }

  /** The reference and compiled tiers drive the motor with -1, 0 or 1 only. */
  lemma SoftwareTiersInRange()
    ensures DrivesInRange(ReferenceCall)
    ensures DrivesInRange(CompiledCall)
  {
  }

  /** The hardware tier passes on whatever integer the board sends: a reply of 2 drives the motor with 2. */
  lemma HardwareTierUnclamped()
    ensures !DrivesInRange(HardwareCall)
  {
    var p := Hil.Port([Hil.Received(Hil.ReplyLine(2))]);
    Hil.ReplyRoundTrip(2);
    HardwareAnswersFromQueue();
    assert HardwareCall(p, false, false, false).1 == 2;
  }

  // ---------------------------------------------------------------------
  // One tick

  /** The time of tick `i`, in hours. */
  function Hora(i: nat): real {
    i as real * 0.1 / 3600.0
  }

  /** The chance of a radio pulse at a given hour: raised around 8:00 and 18:00. */
  function PulseProbability(hora: real): (p: real)
    ensures p == PROB_PEAK <==> (7.9 < hora < 8.1) || (17.9 < hora < 18.1)
    ensures p == PROB_QUIET <==> !((7.9 < hora < 8.1) || (17.9 < hora < 18.1))
  {
    if (7.9 < hora < 8.1) || (17.9 < hora < 18.1) then PROB_PEAK else PROB_QUIET
  }

  /**
   At ten ticks per second, the raised probability applies exactly to the
   ticks strictly between 284400 and 291600 (around 8:00) and strictly
   between 644400 and 651600 (around 18:00).
   */
  lemma PeakTicks(i: nat)
    ensures PulseProbability(Hora(i)) == PROB_PEAK <==> 284400 < i < 291600 || 644400 < i < 651600
    ensures PulseProbability(Hora(i)) == PROB_QUIET <==> !(284400 < i < 291600 || 644400 < i < 651600)
  {
    assert Hora(i) == i as real / 36000.0;
  }

  /** The pulse of tick `i`, from that tick's draw. */
  function Tecla(i: nat, draw: real): bool {
    draw < PulseProbability(Hora(i))
  }

  /** What the loop carries from tick to tick. */
  datatype Sim<C> = Sim(controlador: C, planta: State)

  /** Everything one tick saw and did, and the state it left. */
  datatype TickOut<C> = TickOut(i: nat, tecla: bool, fcA: bool, fcF: bool, cmd: int, posicao: real, after: Sim<C>)

  /** One row of the telemetry: hour, pulse, position, motor command. */
  datatype Record = Record(hora: real, tecla: bool, posicao: real, cmdMotor: int)

  function Start<C>(c: C): Sim<C> {
    Sim(c, PlantModel.Init())
  }

  /** Tick `i` from state `s`, with that tick's draw. */
  function Tick<C>(ctl: Ctl<C>, s: Sim<C>, i: nat, draw: real): (t: TickOut<C>)
    ensures t.i == i && t.tecla == Tecla(i, draw)
    // the limit switches read the position the plant had before this tick's motion
    ensures t.fcA <==> s.planta.posicao >= CURSO_TOTAL
    ensures t.fcF <==> s.planta.posicao <= 0.0
    // the controller is called once with this tick's inputs, then the plant
    // is stepped once with the command it returned
    ensures (t.after.controlador, t.cmd) == ctl(s.controlador, t.tecla, t.fcA, t.fcF)
    ensures t.after.planta == Calcular(GATE, s.planta, t.cmd, DT).next
    // the recorded position is the plant's position after this tick's motion
    ensures t.posicao == t.after.planta.posicao
    ensures t.cmd == 0 ==> t.after.planta == s.planta
    ensures InTravel(GATE, s.planta) ==> InTravel(GATE, t.after.planta)
  {
    var tecla := Tecla(i, draw);
    var fcA := s.planta.posicao >= CURSO_TOTAL;
    var fcF := s.planta.posicao <= 0.0;
    var called := ctl(s.controlador, tecla, fcA, fcF);
    var reading := Calcular(GATE, s.planta, called.1, DT);
    TickOut(i, tecla, fcA, fcF, called.1, reading.posicao, Sim(called.0, reading.next))
  }

  /** The recording policy: a pulse, a driven motor, or every hundredth tick. */
  predicate Keep<C>(t: TickOut<C>) {
    t.tecla || t.cmd != 0 || t.i % RECORD_STRIDE == 0
  }

  function RecordOf<C>(t: TickOut<C>): Record {
    Record(Hora(t.i), t.tecla, t.posicao, t.cmd)
  }

  // ---------------------------------------------------------------------
  // The loop

  /** The loop as written: ticks `i` to the end of the draws, appending to `data`. */
  function Loop<C>(ctl: Ctl<C>, s: Sim<C>, i: nat, draws: seq<real>, data: seq<Record>): (r: seq<Record>)
    decreases |draws| - i
    // records are only ever appended, at most one per remaining tick
    ensures data <= r
    ensures i <= |draws| ==> |r| <= |data| + (|draws| - i)
    ensures i >= |draws| ==> r == data
  {
    if i >= |draws| then data
    else
      var t := Tick(ctl, s, i, draws[i]);
      Loop(ctl, t.after, i + 1, draws, if Keep(t) then data + [RecordOf(t)] else data)
  }

  /** Every tick from `i` to the end of the draws, recorded or not. */
  function Trace<C>(ctl: Ctl<C>, s: Sim<C>, i: nat, draws: seq<real>): (t: seq<TickOut<C>>)
    requires i <= |draws|
    decreases |draws| - i
    ensures |t| == |draws| - i
  {
    if i == |draws| then []
    else
      var first := Tick(ctl, s, i, draws[i]);
      [first] + Trace(ctl, first.after, i + 1, draws)
  }

  /** Ticks numbered consecutively from `i0`. */
  predicate Consecutive<C>(ts: seq<TickOut<C>>, i0: nat) {
    forall k :: 0 <= k < |ts| ==> ts[k].i == i0 + k
  }

  /** Every tick of `ts` drew its pulse from its own draw. */
  predicate PulsesFrom<C>(ts: seq<TickOut<C>>, draws: seq<real>) {
    forall k :: 0 <= k < |ts| ==> ts[k].i < |draws| && ts[k].tecla == Tecla(ts[k].i, draws[ts[k].i])
  }

  /** Every tick leaves the gate on the rail and reports where it left it. */
  predicate OnRail<C>(ts: seq<TickOut<C>>) {
    forall k :: 0 <= k < |ts| ==> InTravel(GATE, ts[k].after.planta) && ts[k].posicao == ts[k].after.planta.posicao
  }

  /** Every tick drives the motor with -1, 0 or 1. */
  predicate CommandsInRange<C>(ts: seq<TickOut<C>>) {
    forall k :: 0 <= k < |ts| ==> -1 <= ts[k].cmd <= 1
  }

  /** Each tick of the trace is computed from the state the previous tick left. */
  ghost predicate Chained<C>(ctl: Ctl<C>, ts: seq<TickOut<C>>, draws: seq<real>) {
    forall k :: 0 < k < |ts| && ts[k].i < |draws| ==> ts[k] == Tick(ctl, ts[k - 1].after, ts[k].i, draws[ts[k].i])
  }

  /**
   The trace numbers its ticks consecutively from `i`, pulses each from its
   own draw, and starts each tick from the state the previous one left.
   */
  lemma {:induction false} TraceInOrder<C>(ctl: Ctl<C>, s: Sim<C>, i: nat, draws: seq<real>)
    requires i <= |draws|
    decreases |draws| - i
    ensures Consecutive(Trace(ctl, s, i, draws), i)
    ensures PulsesFrom(Trace(ctl, s, i, draws), draws)
    ensures i < |draws| ==> Trace(ctl, s, i, draws)[0] == Tick(ctl, s, i, draws[i])
    ensures Chained(ctl, Trace(ctl, s, i, draws), draws)
  {
    if i < |draws| {
      var first := Tick(ctl, s, i, draws[i]);
      var rest := Trace(ctl, first.after, i + 1, draws);
      TraceInOrder(ctl, first.after, i + 1, draws);
      var t := Trace(ctl, s, i, draws);
      assert t == [first] + rest;
      forall k | 0 < k < |t|
        ensures t[k] == rest[k - 1]
      {
      }
      assert |rest| > 0 ==> rest[0].i == i + 1;
    }
  }

  /** A run that starts on the rail stays on the rail. */
  lemma {:induction false} TraceOnRail<C>(ctl: Ctl<C>, s: Sim<C>, i: nat, draws: seq<real>)
    requires i <= |draws|
    requires InTravel(GATE, s.planta)
    decreases |draws| - i
    ensures OnRail(Trace(ctl, s, i, draws))
  {
    if i < |draws| {
      var first := Tick(ctl, s, i, draws[i]);
      var rest := Trace(ctl, first.after, i + 1, draws);
      TraceOnRail(ctl, first.after, i + 1, draws);
      var t := Trace(ctl, s, i, draws);
      assert t == [first] + rest;
      forall k | 0 < k < |t|
        ensures t[k] == rest[k - 1]
      {
      }
    }
  }

  /** A controller that only drives with -1, 0 or 1 does so on every tick of a run. */
  lemma {:induction false} TraceCommandsInRange<C(!new)>(ctl: Ctl<C>, s: Sim<C>, i: nat, draws: seq<real>)
    requires DrivesInRange(ctl)
    requires i <= |draws|
    decreases |draws| - i
    ensures CommandsInRange(Trace(ctl, s, i, draws))
  {
    if i < |draws| {
      var first := Tick(ctl, s, i, draws[i]);
      var rest := Trace(ctl, first.after, i + 1, draws);
      TraceCommandsInRange(ctl, first.after, i + 1, draws);
      var t := Trace(ctl, s, i, draws);
      assert t == [first] + rest;
      forall k | 0 < k < |t|
        ensures t[k] == rest[k - 1]
      {
      }
    }
  }

  /** The records the policy keeps out of a run of ticks, in tick order. */
  function Recorded<C>(ts: seq<TickOut<C>>): (data: seq<Record>)
    ensures |data| <= |ts|
  {
    if |ts| == 0 then []
    else (if Keep(ts[0]) then [RecordOf(ts[0])] else []) + Recorded(ts[1..])
  }

  lemma RecordedCons<C>(t: TickOut<C>, rest: seq<TickOut<C>>)
    ensures Recorded([t] + rest) == (if Keep(t) then [RecordOf(t)] else []) + Recorded(rest)
  {
    assert ([t] + rest)[1..] == rest;
  }

  lemma Regroup(data: seq<Record>, head: seq<Record>, tail: seq<Record>)
    requires |head| <= 1
    ensures (if |head| == 1 then data + head else data) + tail == data + (head + tail)
  {
    if |head| == 0 {
      assert head + tail == tail;
    }
  }

  /** One turn of the loop. */
  lemma LoopUnfolds<C>(ctl: Ctl<C>, s: Sim<C>, i: nat, draws: seq<real>, data: seq<Record>)
    requires i < |draws|
    ensures var t := Tick(ctl, s, i, draws[i]);
            Loop(ctl, s, i, draws, data) == Loop(ctl, t.after, i + 1, draws, if Keep(t) then data + [RecordOf(t)] else data)
  {
  }

  /** The loop appends exactly the records the policy keeps out of the trace. */
  lemma {:induction false} LoopRecordsTrace<C>(ctl: Ctl<C>, s: Sim<C>, i: nat, draws: seq<real>, data: seq<Record>)
    requires i <= |draws|
    decreases |draws| - i
    ensures Loop(ctl, s, i, draws, data) == data + Recorded(Trace(ctl, s, i, draws))
  {
    if i < |draws| {
      var t := Tick(ctl, s, i, draws[i]);
      var data' := if Keep(t) then data + [RecordOf(t)] else data;
      var rest := Trace(ctl, t.after, i + 1, draws);
      LoopRecordsTrace(ctl, t.after, i + 1, draws, data');
      LoopUnfolds(ctl, s, i, draws, data);
      assert Trace(ctl, s, i, draws) == [t] + rest;
      RecordedCons(t, rest);
      Regroup(data, if Keep(t) then [RecordOf(t)] else [], Recorded(rest));
    } else {
      assert Trace(ctl, s, i, draws) == [];
    }
  }

  /** Of a run of consecutive ticks from `i0`, the records come in strictly increasing time order, none before tick `i0`. */
  lemma {:induction false} RecordedInOrder<C>(ts: seq<TickOut<C>>, i0: nat)
    requires Consecutive(ts, i0)
    ensures forall r :: r in Recorded(ts) ==> Hora(i0) <= r.hora
    ensures forall a, b :: 0 <= a < b < |Recorded(ts)| ==> Recorded(ts)[a].hora < Recorded(ts)[b].hora
  {
    if |ts| > 0 {
      var tail := ts[1..];
      RecordedInOrder(tail, i0 + 1);
      var head := if Keep(ts[0]) then [RecordOf(ts[0])] else [];
      assert Recorded(ts) == head + Recorded(tail);
      assert Hora(i0) < Hora(i0 + 1);
    }
  }

  /**
   Of a run of consecutive ticks, a tick's record is kept exactly when the
   policy says so, and every kept record is some kept tick's record.
   */
  lemma {:induction false} RecordedIsFilter<C>(ts: seq<TickOut<C>>, i0: nat)
    requires Consecutive(ts, i0)
    ensures forall k :: 0 <= k < |ts| ==> (Keep(ts[k]) <==> RecordOf(ts[k]) in Recorded(ts))
    ensures forall r :: r in Recorded(ts) ==>
              exists k :: 0 <= k < |ts| && Keep(ts[k]) && r == RecordOf(ts[k])
  {
    if |ts| > 0 {
      var tail := ts[1..];
      RecordedIsFilter(tail, i0 + 1);
      RecordedInOrder(tail, i0 + 1);
      var head := if Keep(ts[0]) then [RecordOf(ts[0])] else [];
      var data := Recorded(ts);
      assert data == head + Recorded(tail);
      assert Hora(i0) < Hora(i0 + 1);
      forall k | 0 <= k < |ts|
        ensures Keep(ts[k]) <==> RecordOf(ts[k]) in data
      {
        if k > 0 {
          assert ts[k] == tail[k - 1];
          assert RecordOf(ts[k]).hora != Hora(i0);
        } else {
          assert RecordOf(ts[0]) !in Recorded(tail);
        }
      }
      forall r | r in data
        ensures exists k :: 0 <= k < |ts| && Keep(ts[k]) && r == RecordOf(ts[k])
      {
        if r in Recorded(tail) {
          var k :| 0 <= k < |tail| && Keep(tail[k]) && r == RecordOf(tail[k]);
          assert ts[k + 1] == tail[k];
        }
      }
    }
  }

  /** The telemetry of a whole run: the loop started on a fresh plant at tick 0. */
  function SimulationLoop<C(!new)>(ctl: Ctl<C>, c: C, draws: seq<real>): (data: seq<Record>)
    ensures |data| <= |draws|
    ensures |draws| > 0 ==> |data| > 0 && data[0].hora == 0.0
    ensures forall a, b :: 0 <= a < b < |data| ==> data[a].hora < data[b].hora
    ensures forall r :: r in data ==> 0.0 <= r.posicao <= CURSO_TOTAL
    ensures DrivesInRange(ctl) ==> forall r :: r in data ==> -1 <= r.cmdMotor <= 1
  {
    RunFacts(ctl, c, draws);
    RecordedIsFilter(Trace(ctl, Start(c), 0, draws), 0);
    RecordedInOrder(Trace(ctl, Start(c), 0, draws), 0);
    Loop(ctl, Start(c), 0, draws, [])
  }

  /** What the run's trace tells about the records the loop keeps. */
  lemma RunFacts<C(!new)>(ctl: Ctl<C>, c: C, draws: seq<real>)
    ensures Loop(ctl, Start(c), 0, draws, []) == Recorded(Trace(ctl, Start(c), 0, draws))
    ensures Consecutive(Trace(ctl, Start(c), 0, draws), 0)
    ensures OnRail(Trace(ctl, Start(c), 0, draws))
    ensures DrivesInRange(ctl) ==> CommandsInRange(Trace(ctl, Start(c), 0, draws))
    ensures |draws| > 0 ==> Keep(Trace(ctl, Start(c), 0, draws)[0])
  {
    var ts := Trace(ctl, Start(c), 0, draws);
    LoopRecordsTrace(ctl, Start(c), 0, draws, []);
    assert [] + Recorded(ts) == Recorded(ts);
    TraceInOrder(ctl, Start(c), 0, draws);
    TraceOnRail(ctl, Start(c), 0, draws);
    if DrivesInRange(ctl) {
      TraceCommandsInRange(ctl, Start(c), 0, draws);
    }
  }

  /**
   A tick is recorded exactly when the policy keeps it, and every record is
   the record of such a tick: its hour, pulse, post-step position and the
   motor command (not the controller's state).
   */
  lemma RecordPolicy<C(!new)>(ctl: Ctl<C>, c: C, draws: seq<real>)
    ensures forall k :: 0 <= k < |draws| ==>
              (Keep(Trace(ctl, Start(c), 0, draws)[k]) <==>
               RecordOf(Trace(ctl, Start(c), 0, draws)[k]) in SimulationLoop(ctl, c, draws))
    ensures forall r :: r in SimulationLoop(ctl, c, draws) ==>
              exists k :: 0 <= k < |draws| && Keep(Trace(ctl, Start(c), 0, draws)[k])
                          && r == RecordOf(Trace(ctl, Start(c), 0, draws)[k])
  {
    RunFacts(ctl, c, draws);
    RecordedIsFilter(Trace(ctl, Start(c), 0, draws), 0);
  }

  // ---------------------------------------------------------------------
  // Cross-tier equivalence

  lemma {:induction false} ReferenceMatchesCompiledFrom(
      s: int, dll: Firmware.ValidFw, p: State, i: nat, draws: seq<real>, data: seq<Record>)
    requires dll.estadoAtual as int == s
    decreases |draws| - i
    ensures Loop(ReferenceCall, Sim(s, p), i, draws, data) == Loop(CompiledCall, Sim(dll, p), i, draws, data)
  {
    if i < |draws| {
      var tr := Tick(ReferenceCall, Sim(s, p), i, draws[i]);
      var tc := Tick(CompiledCall, Sim(dll, p), i, draws[i]);
      assert tr.cmd == tc.cmd && tr.after.planta == tc.after.planta;
      ReferenceMatchesCompiledFrom(tr.after.controlador, tc.after.controlador,
                                   tr.after.planta, i + 1, draws,
                                   if Keep(tr) then data + [RecordOf(tr)] else data);
    }
  }

  /** The Python reference and the compiled C++ library produce identical telemetry for every pulse stream. */
  lemma ReferenceMatchesCompiled(draws: seq<real>)
    ensures SimulationLoop(ReferenceCall, Controller.Init(), draws)
            == SimulationLoop<Firmware.ValidFw>(CompiledCall, Firmware.New(), draws)
  {
    ReferenceMatchesCompiledFrom(Controller.Init(), Firmware.New(), PlantModel.Init(), 0, draws, []);
  }

  /**
   A controller that ignores its inputs and answers each call from a queue of
   replies, consuming one reply per call and reading it with `val`.
   */
  ghost predicate AnswersFromQueue(hw: Ctl<Hil.Port>, val: Hil.SerialRead -> int) {
    forall port: Hil.Port, tecla, fcA, fcF :: |port.pending| > 0 ==>
      hw(port, tecla, fcA, fcF) == (Hil.Port(port.pending[1..]), val(port.pending[0]))
  }

  /** The serial adapter consumes one reply per call and passes on its parse. */
  lemma HardwareAnswersFromQueue()
    ensures AnswersFromQueue(HardwareCall, Hil.ParseReply)
  {
    forall port: Hil.Port, tecla: bool, fcA: bool, fcF: bool | |port.pending| > 0
      ensures HardwareCall(port, tecla, fcA, fcF) == (Hil.Port(port.pending[1..]), Hil.ParseReply(port.pending[0]))
    {
      var step := Hil.Processar(port, tecla, fcA, fcF);
      assert step.port == Hil.Port(port.pending[1..]);
    }
  }

  /** The queue holds, read with `val`, the command `ctl` gives on each tick of the run from `s`. */
  ghost predicate QueueFollows<A>(ctl: Ctl<A>, val: Hil.SerialRead -> int, port: Hil.Port, s: Sim<A>, i: nat, draws: seq<real>)
    requires i <= |draws|
  {
    var ts := Trace(ctl, s, i, draws);
    |ts| <= |port.pending| && forall k :: 0 <= k < |ts| ==> val(port.pending[k]) == ts[k].cmd
  }

  /** Two ticks that saw and did the same, whatever the controllers' states. */
  predicate SameObservation<A, B>(a: TickOut<A>, b: TickOut<B>) {
    && a.i == b.i && a.tecla == b.tecla && a.fcA == b.fcA && a.fcF == b.fcF
    && a.cmd == b.cmd && a.posicao == b.posicao && a.after.planta == b.after.planta
  }

  /** One tick of a queue-answering controller whose next reply reads as `ctl`'s command. */
  lemma QueueTickMatches<A>(ctl: Ctl<A>, a: A, hw: Ctl<Hil.Port>, val: Hil.SerialRead -> int,
                            port: Hil.Port, p: State, i: nat, draw: real)
    requires AnswersFromQueue(hw, val)
    requires |port.pending| > 0 && val(port.pending[0]) == Tick(ctl, Sim(a, p), i, draw).cmd
    ensures SameObservation(Tick(hw, Sim(port, p), i, draw), Tick(ctl, Sim(a, p), i, draw))
    ensures Tick(hw, Sim(port, p), i, draw).after.controlador == Hil.Port(port.pending[1..])
  {
    var tr := Tick(ctl, Sim(a, p), i, draw);
    assert hw(port, tr.tecla, tr.fcA, tr.fcF) == (Hil.Port(port.pending[1..]), val(port.pending[0]));
  }

  /** The queue, after the first tick's reply is consumed, follows the rest of the run. */
  lemma QueueShift<A>(ctl: Ctl<A>, val: Hil.SerialRead -> int, port: Hil.Port, s: Sim<A>, i: nat, draws: seq<real>)
    requires i < |draws|
    requires QueueFollows(ctl, val, port, s, i, draws)
    ensures |port.pending| > 0 && val(port.pending[0]) == Tick(ctl, s, i, draws[i]).cmd
    ensures QueueFollows(ctl, val, Hil.Port(port.pending[1..]), Tick(ctl, s, i, draws[i]).after, i + 1, draws)
  {
    var ts := Trace(ctl, s, i, draws);
    var tr := Tick(ctl, s, i, draws[i]);
    var rest := Trace(ctl, tr.after, i + 1, draws);
    assert ts == [tr] + rest;
    assert ts[0] == tr;
    var port' := Hil.Port(port.pending[1..]);
    forall k | 0 <= k < |rest|
      ensures val(port'.pending[k]) == rest[k].cmd
    {
      assert rest[k] == ts[k + 1];
      assert port'.pending[k] == port.pending[k + 1];
    }
    assert QueueFollows(ctl, val, port', tr.after, i + 1, draws);
  }

  /** Ticks that saw and did the same, one for one. */
  predicate Lockstep<A, B>(ta: seq<TickOut<A>>, tb: seq<TickOut<B>>) {
    |ta| == |tb| && forall k :: 0 <= k < |ta| ==> SameObservation(ta[k], tb[k])
  }

  /** The telemetry depends only on what the ticks saw and did, not on the controller's state. */
  lemma {:induction false} RecordedLockstep<A, B>(ta: seq<TickOut<A>>, tb: seq<TickOut<B>>)
    requires Lockstep(ta, tb)
    ensures Recorded(ta) == Recorded(tb)
  {
    if |ta| > 0 {
      assert forall k :: 0 <= k < |ta| - 1 ==> ta[1..][k] == ta[k + 1] && tb[1..][k] == tb[k + 1];
      RecordedLockstep(ta[1..], tb[1..]);
      assert RecordOf(ta[0]) == RecordOf(tb[0]);
    }
  }

  /** A queue that follows `ctl`'s run makes the queue-answering controller tick in lockstep with it. */
  lemma {:induction false} QueueLockstep<A>(ctl: Ctl<A>, a: A, hw: Ctl<Hil.Port>, val: Hil.SerialRead -> int,
                                            port: Hil.Port, p: State, i: nat, draws: seq<real>)
    requires i <= |draws|
    requires AnswersFromQueue(hw, val)
    requires QueueFollows(ctl, val, port, Sim(a, p), i, draws)
    decreases |draws| - i
    ensures Lockstep(Trace(hw, Sim(port, p), i, draws), Trace(ctl, Sim(a, p), i, draws))
  {
    if i < |draws| {
      var tr := Tick(ctl, Sim(a, p), i, draws[i]);
      QueueShift(ctl, val, port, Sim(a, p), i, draws);
      QueueTickMatches(ctl, a, hw, val, port, p, i, draws[i]);
      var th := Tick(hw, Sim(port, p), i, draws[i]);
      var port' := Hil.Port(port.pending[1..]);
      assert tr.after == Sim(tr.after.controlador, tr.after.planta);
      QueueLockstep(ctl, tr.after.controlador, hw, val, port', tr.after.planta, i + 1, draws);
      assert th.after == Sim(port', tr.after.planta);
      var hrest := Trace(hw, th.after, i + 1, draws);
      var rrest := Trace(ctl, tr.after, i + 1, draws);
      var h := Trace(hw, Sim(port, p), i, draws);
      var r := Trace(ctl, Sim(a, p), i, draws);
      assert h == [th] + hrest;
      assert r == [tr] + rrest;
      forall k | 0 <= k < |h|
        ensures SameObservation(h[k], r[k])
      {
        if k > 0 {
          assert h[k] == hrest[k - 1] && r[k] == rrest[k - 1];
        }
      }
    }
  }

  /** The whole-run telemetry is the policy's filter of the run's trace. */
  lemma SimulationLoopRecordsTrace<C(!new)>(ctl: Ctl<C>, c: C, draws: seq<real>)
    ensures SimulationLoop(ctl, c, draws) == Recorded(Trace(ctl, Start(c), 0, draws))
  {
    LoopRecordsTrace(ctl, Start(c), 0, draws, []);
    assert [] + Recorded(Trace(ctl, Start(c), 0, draws)) == Recorded(Trace(ctl, Start(c), 0, draws));
  }

  /** Two controllers whose fresh runs tick in lockstep produce the same telemetry. */
  lemma LockstepLoops<A(!new), B(!new)>(ca: Ctl<A>, a: A, cb: Ctl<B>, b: B, draws: seq<real>)
    requires Lockstep(Trace(ca, Start(a), 0, draws), Trace(cb, Start(b), 0, draws))
    ensures SimulationLoop(ca, a, draws) == SimulationLoop(cb, b, draws)
  {
    SimulationLoopRecordsTrace(ca, a, draws);
    SimulationLoopRecordsTrace(cb, b, draws);
    RecordedLockstep(Trace(ca, Start(a), 0, draws), Trace(cb, Start(b), 0, draws));
  }

  /** A queue whose replies read, with `val`, as the commands of `ctl`'s run from tick 0 follows that run. */
  lemma QueueFollowsRun<A>(ctl: Ctl<A>, val: Hil.SerialRead -> int, replies: seq<Hil.SerialRead>, s: Sim<A>, draws: seq<real>)
    requires |draws| <= |replies|
    requires forall k :: 0 <= k < |draws| ==> val(replies[k]) == Trace(ctl, s, 0, draws)[k].cmd
    ensures QueueFollows(ctl, val, Hil.Port(replies), s, 0, draws)
  {
    var port := Hil.Port(replies);
    var ts := Trace(ctl, s, 0, draws);
    forall k | 0 <= k < |ts|
      ensures val(port.pending[k]) == ts[k].cmd
    {
      assert port.pending[k] == replies[k];
    }
  }

  /**
   When every reply the board sends parses to the command the reference
   controller gives on that tick, the hardware tier's telemetry is identical
   to the reference tier's. A board that answers with `ReplyLine` of that
   command is such a board (`Hil.ReplyRoundTrip`).
   */
  lemma HardwareMatchesReference(replies: seq<Hil.SerialRead>, draws: seq<real>)
    requires |draws| <= |replies|
    requires forall k :: 0 <= k < |draws| ==>
               Hil.ParseReply(replies[k]) == Trace(ReferenceCall, Start(Controller.Init()), 0, draws)[k].cmd
    ensures SimulationLoop(HardwareCall, Hil.Port(replies), draws)
            == SimulationLoop(ReferenceCall, Controller.Init(), draws)
  {
    HardwareAnswersFromQueue();
    QueueFollowsRun(ReferenceCall, Hil.ParseReply, replies, Start(Controller.Init()), draws);
    QueueLockstep(ReferenceCall, Controller.Init(), HardwareCall, Hil.ParseReply,
                  Hil.Port(replies), PlantModel.Init(), 0, draws);
    LockstepLoops(HardwareCall, Hil.Port(replies), ReferenceCall, Controller.Init(), draws);
  }

  /**
   A failed read, or a reply that is not an integer, stops the motor for that
   tick and leaves the gate where it was; the run goes on.
   */
  lemma HardwareFaultHoldsGate(port: Hil.Port, p: State, i: nat, draw: real)
    requires var reply := Hil.NextRead(port);
             || reply.Failed?
             || Hil.DecodeAscii(reply.bytes).None?
             || Hil.ParseInt(Hil.Strip(Hil.DecodeAscii(reply.bytes).value)).None?
    ensures var t := Tick(HardwareCall, Sim(port, p), i, draw);
            t.cmd == 0 && t.after.planta == p && t.posicao == p.posicao
  {
  }

  /**
   A fresh run whose first draw is a pulse starts opening at tick 0 even
   though the closed limit switch is asserted, and the gate holds still while
   the dead zone is taken up; the reference and compiled tiers agree.
   */
  lemma FirstPulseOpens(draw: real)
    requires Tecla(0, draw)
    ensures var t := Tick(ReferenceCall, Start(Controller.Init()), 0, draw);
            t.tecla && t.fcF && !t.fcA && t.cmd == 1 && t.posicao == 0.0
    ensures var t := Tick<Firmware.ValidFw>(CompiledCall, Start(Firmware.New()), 0, draw);
            t.tecla && t.fcF && !t.fcA && t.cmd == 1 && t.posicao == 0.0
  {
  }
}
